=== FILE: README.md ===
# treemux routing core in Dafny

This project models the core of treemux, an HTTP request router for Go built on a
compressed prefix tree (a radix trie). Route patterns are inserted into the tree.
A pattern is made of static text, `:name` wildcards that match one path segment,
and a terminal `*name` catch-all. `\*`, `\:` and `\\` escape those characters.
Requests are matched against the tree with a fixed precedence: static children
first, then the wildcard child, then the catch-all child. The parameters a match
captures are named after the pattern's wildcards and percent-decoded.

The model is functional:

- A node is an immutable `Node<H>` value with a generic handler type `H`.
- Insertion (`addPath`) returns the new tree together with the address of the
  leaf. An address is a path of `Static(k)`, `Wild` and `CatchAll` steps, where
  the Go code hands back a pointer.
- Registration (`Group.Handle` and its `addOne` closure) updates that leaf with
  `Replace`.
- The router's panics become `Result` errors of type `RouteError`.
- The runtime panics that `search` can hit become `Match.Fault`:
  - an index out of range in `paramName`;
  - a catch-all child without a handler table;
  - an index byte array longer than the child array.

Modules:

- `Wrappers`: `Option`, `Result` and the registration errors.
- `HandlerTable`: the per-node verb table and `setHandler` with its implicit-HEAD
  rule.
- `PercentEncoding`: the percent-decoding of captured values, with the
  decode-or-raw fallback.
- `Tree`: nodes, the structural invariant `WellFormed`, `sortStaticChild`,
  `splitCommonPrefix` and `addPath`.
- `RuneRange`: splitCommonPrefix's scan as tree.go writes it, stepping by UTF-8
  runes, with the inputs on which it differs from the byte scan `Tree` uses (see
  "## Findings").
- `Matching`: `node.search` and its precedence properties.
- `Group`: `checkPath`, `joinPath`, `unescapeSpecial`, `handlerWithMiddlewares`,
  and `Handle`/`addOne`.
- `Params`: the parameter list of request.go (`Get`, `Text`, `Map`, `Uint64`,
  `Uint32`, `Request.Param`).
- `Registration`: theorems that span insertion, registration and search:
  - the names a leaf records;
  - an escaped `*`, `:` or `\` is inserted as a literal character;
  - the round trip from registering a literal route to matching it;
  - a second registration of the same route and verb fails;
  - inserting or registering a route never loses a route that was already there.

`WellFormed` is the tree invariant:

- the two static arrays have the same length;
- each index byte is the first byte of its child's label;
- child labels are non-empty;
- sibling index bytes are pairwise distinct;
- a catch-all child is flagged as one.

Insertion both requires and preserves it. Matching needs no precondition.

## Model

| member | source | states |
|---|---|---|
| HandlerTable.Get | tree.go:33-52 | A verb reads as a handler exactly when the table holds one for it, and then as that handler. The fixed fields for the seven standard verbs hold what the map holds, because `Set` writes both. |
| HandlerTable.Set | tree.go:54-76 | After writing a verb, reading it returns the new handler. Every other verb reads as before, and the implicit-HEAD flag is untouched. |
| HandlerTable.SetHandler | tree.go:118-130 | Fails (DuplicateHandler) exactly when the verb already has a handler and is not a HEAD whose handler was only derived from GET. On success the verb reads as the new handler and every other verb is unchanged. The flag takes the given value only when the verb is HEAD; otherwise it is kept. |
| HandlerTable.ImplicitHeadThenExplicit | tree.go:118-130 | GET followed by a derived HEAD leaves HEAD overridable. An explicit HEAD then succeeds, keeps GET and clears the flag. A second explicit HEAD is rejected. |
| PercentEncoding.PathUnescape | tree.go:354-357 | Decoding never lengthens the text and keeps a leading byte that is not `%`. |
| PercentEncoding.DecodeOrRaw | tree.go:393-396 | A captured value is the decoded text when decoding succeeds and the raw text when it fails. |
| PercentEncoding.UnescapeWithoutPercent | tree.go:354-357 | Text without `%` is captured unchanged. |
| PercentEncoding.UnescapeEscapeAll | tree.go:393-396 | Decoding inverts the full percent-encoding of any byte string. |
| PercentEncoding.DecodeOrRawFallback | tree.go:354-357 | A `%` anywhere in the text that does not start a two-hex-digit escape makes decoding fail, and the raw text is kept. |
| PercentEncoding.DecodeWellEscaped | tree.go:354-357 | When every `%` starts a two-hex-digit escape, decoding succeeds. |
| PercentEncoding.DecodeSucceedsExactly | tree.go:354-357 | Decoding succeeds if and only if every `%` starts a two-hex-digit escape. When one does not, the captured value is the raw text. |
| Tree.ParamName | tree.go:106-108 | The i-th parameter name counts from the innermost end of the leaf's names. It is undefined (None) exactly when i is out of range. |
| Tree.TokenEnd | tree.go:159-175 | A pattern starting with '/' has the one-byte token "/". Otherwise the token runs up to the next '/' or the end of the pattern. |
| Tree.StaticToken | tree.go:224-233 | The static token is non-empty and no longer than the current token. It starts with '/' exactly when the pattern does, so an escape never makes a token look like a separator. What an escape means for insertion is stated by Registration.EscapeIsLiteral. |
| Tree.SortStaticChild | tree.go:110-116 | Child i and its index byte move together to a position j ≤ i, and the elements in between shift by one. The result is a permutation that keeps the two arrays aligned. Nothing else in the node changes. |
| Tree.BubbleStop | tree.go:110-116 | Reference position for a child of priority p standing at i. Every child between it and i has strictly lower priority, and the child just in front of it, if any, has at least p. |
| Tree.SortRespectsPriority | tree.go:110-116 | `sortStaticChild` leaves the child exactly at the reference position: it passes only lower-priority children and stops behind a peer, so ties keep their order. |
| Tree.SortKeepsWellFormed | tree.go:110-116 | Sorting keeps index bytes aligned with their children and pairwise distinct. |
| Tree.CommonScan | tree.go:281-290 | The corrected common-prefix scan, byte by byte: it stops at the first mismatching byte or at the end of the token, and otherwise ends on the last index of the child's label, so the result is always shorter than the label. tree.go's loop steps by UTF-8 runes instead; see "## Findings". |
| RuneRange.RuneWidth | tree.go:283 | The step Go's range over a string takes: one byte for ASCII or an invalid or truncated sequence, otherwise a whole valid 2- to 4-byte UTF-8 encoding whose trailing bytes are all continuation bytes. |
| RuneRange.RuneScan | tree.go:281-290 | The loop as written: it compares only the first byte of each rune and stops on a mismatch or at the end of the token. Otherwise it ends on the last rune start of the label. Jumping past the token's end is Go's index panic (None). |
| RuneRange.RuneScanAsciiAgrees | tree.go:281-290 | On a label of ASCII bytes the loop as written and the corrected byte scan give the same position. |
| RuneRange.SplitAsWritten | tree.go:269-307 | splitCommonPrefix as written: the intermediary takes the token up to where the rune scan stopped, and the old child keeps the rest of its own label. |
| RuneRange.RuneScanCounterexamples | tree.go:283-290 | On "über" against "änderung" the loop stops at 2 and the byte scan at 1. On "é" against "ê" the loop stops at 0 and the byte scan at 1. On "éx" against a lone C3 byte the loop indexes past the token. |
| RuneRange.SplitAsWrittenLosesRoute | tree.go:292-306 | As written, inserting "änderung" beside "über" relabels the way to the old node as "ä" then "ber", so the "über" route is lost. |
| RuneRange.SplitAsWrittenMakesNoProgress | tree.go:244-252 | As written, inserting "ê" beside "é" consumes nothing. It leaves an empty intermediary holding the unchanged old child under the same byte, so the recursive addPath meets the same situation again. |
| Tree.SplitCommonPrefix | tree.go:269-307 | If the child's label prefixes the token, nothing changes and the whole label is consumed. Otherwise the child's slot gets an intermediary labelled with the longest common prefix, of length i < \|label\|. The intermediary has the old child as its only static child, relabelled with the rest and indexed by its new first byte, so the two labels concatenate to the old one. It inherits the child's priority. At least one byte is consumed when the first bytes agree. This is the corrected split, built on the byte scan; tree.go as written differs on multi-byte labels (see "## Findings"). |
| Tree.SplitKeepsWellFormed | tree.go:269-307 | A split keeps the tree well formed, leaves the index bytes as they were, and consumes between 1 and \|token\| bytes. |
| Tree.AddLeaf | tree.go:133-157 | At the end of a pattern the collected names are recorded when the node has none. A later list is rejected exactly when both are non-empty and differ; a length difference gives WildcardCountMismatch. |
| Tree.AddCatchAll | tree.go:177-201 | Succeeds exactly when no '/' follows the catch-all and the existing catch-all child, if any, has the same name. The leaf is flagged catch-all and records the collected names plus its own. Because the name check runs first, a '/' after the catch-all is reported as a name conflict, never as a slash error. |
| Tree.AddPath | tree.go:132-267 | Insertion keeps the tree well formed and keeps the root's label and priority. The returned address leads to a node in the new tree. |
| Tree.AddWildcard | tree.go:203-218 | A `:name` token goes through the wildcard child, so the leaf's address starts with the wildcard step. The tree stays well formed. |
| Tree.AddStatic | tree.go:224-266 | A static or escaped token either extends the child with the same first byte or appends a new child. The tree stays well formed and the leaf is reachable. |
| Tree.Descend | tree.go:240-252 | Before descending into an existing child, only the static arrays change. The child moves to a position j ≤ k, and between 1 and \|token\| bytes are consumed when the first bytes agree. |
| Tree.DescendKeepsWellFormed | tree.go:240-252 | Splitting, raising the priority and re-sorting keeps the tree well formed. |
| Tree.DescendOthers | tree.go:240-252 | The index byte moves with its child. The child at j is labelled with the consumed part of the token. Every other child keeps its relative order and is unchanged. |
| Tree.DescendIntoChild | tree.go:244-247 | When the old label prefixes the token, the same child is followed with its priority one higher. |
| Tree.DescendIntoSplit | tree.go:244-247 | Otherwise a fresh intermediary is followed. It has the common-prefix label and the old child's priority plus one, and holds the old child below it. |
| Tree.BumpPriority | tree.go:246 | The matched child's priority goes up by exactly one, and well-formedness is kept. |
| Tree.BumpPriorityFrame | tree.go:246 | Nothing else changes: the node's other fields, every other child, and every field of the matched child but its priority. |
| Tree.AppendKeepsWellFormed | tree.go:256-266 | A new child is appended only for a first byte that no sibling has, so index bytes stay distinct and aligned. |
| Tree.CatchAllKeepsWellFormed | tree.go:177-201 | Adding or reusing the catch-all leaf keeps the tree well formed, and its root label and priority. |
| Tree.ReplaceKeepsWellFormed | group.go:145-160 | Updating a node's route, flags and handlers in place keeps the tree well formed. Afterwards the address leads to the updated node. |
| Params.Get | request.go:41-48 | Returns the value of the first parameter with that name, or nothing when no parameter has it. |
| Params.Text | request.go:50-53 | The value Get finds, or "" when there is none. |
| Params.RequestParam | request.go:30-32 | A request's parameter lookup is Text on its parameter list. |
| Params.ToMap | request.go:67-76 | Nothing for an empty list. Otherwise the keys are exactly the parameter names, and each value is the last value given for that name. |
| Params.MapAgreesWithGet | request.go:67-76 | When names are distinct, the map and Get agree on every name. |
| Params.ParseUint64 | request.go:63-65 | Succeeds exactly on a non-empty all-digit text whose value is at most 2^64-1, and returns that value. Empty text is a syntax error with value 0. The digits are read left to right, and the first problem decides the error. A non-digit reached while the digit prefix is still at most 2^64-1 is a syntax error with value 0. A digit prefix above 2^64-1 is a range error with value 2^64-1, whatever follows it. |
| Params.Uint64 | request.go:63-65 | Parses Text of the name, so an absent parameter is a syntax error. |
| Params.Uint32 | request.go:55-61 | Parses at 64 bits and truncates: on success the value is taken modulo 2^32 with no error; on any error the value is 0. |
| Matching.Search | tree.go:309-407 | Every match reports the node's table entry for the verb, with no more parameters than the node records names. With the path used up, there is no fault, and a match exactly when the node has a handler table. |
| Matching.SearchStatic | tree.go:321-333 | The static tier's match obeys the same reporting rule as the whole search. |
| Matching.SearchWildcard | tree.go:341-383 | The wildcard tier either leaves what the static tier found, faults, or reports a match carrying at least the wildcard's own parameter. |
| Matching.SearchCatchAll | tree.go:385-406 | The catch-all tier either leaves what was found, faults, or answers with the catch-all child itself and exactly one parameter. |
| Matching.SearchSound | tree.go:309-407 | Every match search reports is a node of the tree that has a handler table. Its handler is the table's entry for the verb (none meaning "exists, wrong verb"). Its parameters are named innermost first from that node's names. |
| Matching.SearchAtEnd | tree.go:313-319 | With the path used up, the node answers with its own entry for the verb, or nothing when it has no table. |
| Matching.StaticDominates | tree.go:321-339 | Once the static child's subtree yields a handler, no wildcard or catch-all child can change the outcome. |
| Matching.WildcardDominatesCatchAll | tree.go:341-383 | When the wildcard tier yields a handler, the catch-all child is never consulted. |
| Matching.WildcardSkipsEmptySegment | tree.go:341-351 | A wildcard never matches an empty segment: at a '/' the wildcard child plays no part. |
| Matching.CatchAllCapturesRest | tree.go:385-402 | When nothing else matched, the catch-all answers even without a handler for the verb. It captures the whole rest of the path, decoded or raw, under its own name. |
| Matching.WildcardCapturesSegment | tree.go:341-372 | When the wildcard subtree yields a handler, search returns its node and handler. The parameters are the subtree's, followed by the non-empty segment up to the next '/', decoded or raw, under the name at the subtree's parameter count. It faults exactly when that name does not exist. |
| Matching.CatchAllBeatsIdleNode | tree.go:385-402 | A catch-all with a handler for the verb wins over a node the earlier tiers found without one, and captures the whole rest of the path under its own name. |
| Matching.ExistingNodeBeatsIdleCatchAll | tree.go:385-406 | A catch-all without a handler for the verb never hides a node the earlier tiers found, so "method not allowed" stays distinguishable from "not found". |
| Group.HandlerWithMiddlewares | group.go:12-17 | The first middleware of the stack ends up outermost. An empty stack returns the handler itself. |
| Group.CheckPath | group.go:234-239 | A path passes exactly when it is empty or starts with '/'. Otherwise the error names the path. |
| Group.JoinPath | group.go:224-232 | Fails exactly when the suffix is non-empty and does not start with '/'. Otherwise it returns the concatenation, shortened by one byte exactly when that ends in '/'. |
| Group.ReplaceAll | group.go:245-257 | Replacing with text no longer than the pattern never lengthens the string. Text without the pattern's first byte is unchanged. |
| Group.ReplaceAllOccurrence | group.go:245-257 | Every occurrence is replaced: the first occurrence after text that cannot start the pattern becomes the replacement, and the scan resumes right after it, so occurrences do not overlap. |
| Group.UnescapeSpecial | group.go:241-260 | The five replacements never lengthen the pattern, and a pattern without '/' is unchanged. |
| Group.UnescapeStarAfterSlash | group.go:244-245 | `/%2A` at the start becomes `/*`, and the `%`-free rest is unchanged. |
| Group.UnescapeSpecialWithoutPercent | group.go:241-260 | All five replacements look for a '%', so text without '%' comes through unchanged. |
| Group.SetLeafHandlers | group.go:154-160 | The verb is written, with the same failure condition as setHandler. With HeadCanUseGet, a GET also installs HEAD when there is none, flagged implicit. Verbs other than the one written and HEAD keep their handlers, and the verb cannot be written again. |
| Group.UpdateLeaf | group.go:146-160 | A node that already has a different route is a RouteConflict. Otherwise the route becomes the full pattern, addSlash is only ever set, and the handler is written. Children and label are untouched. |
| Group.AddOne | group.go:144-161 | Registering a full pattern keeps the tree well formed and keeps the root's label. |
| Group.TrimTrailingSlash | group.go:169-172 | A final '/' is dropped, and addSlash set, exactly when the path is longer than "/" and RedirectTrailingSlash is on. The dropped form plus "/" is the original. |
| Group.Handle | group.go:135-187 | A path not starting with '/' is rejected with its name. An empty full path is EmptyPath. A successful registration keeps the tree well formed. |
| Registration.AddPathRecordsNames | tree.go:132-218 | The leaf records the collected names followed by the names the pattern declares, in order, when there are any. PatternNames is an independent tokenizer of the pattern. |
| Registration.LiteralLeafOnStaticWalk | tree.go:224-266 | For a pattern without wildcards or escapes, the leaf insertion returns is exactly where the static walk of that pattern ends in the new tree. |
| Registration.AddStaticShape | tree.go:224-266 | A static token goes in through the static child indexed by the token's first byte, whether that child existed or was appended. The wildcard and catch-all children are untouched. |
| Registration.EscapeIsLiteral | tree.go:224-233 | `\*`, `\:` and `\\` at the start of a token stand for the character itself. The pattern goes in through the static child indexed by that character and never through the wildcard or catch-all child. |
| Registration.StaticWalkMatches | tree.go:321-339 | Search answers a path whose static walk ends at a node with a handler for the verb with that node and handler, and no parameters. |
| Registration.ReplaceKeepsStaticWalk | group.go:144-161 | Updating the leaf's data leaves every static walk as it was. |
| Registration.HandleLeaf | group.go:144-161 | Handle places a literal route at the end of the static walk of the stored pattern. That node records the pattern as its route, holds the middleware-wrapped handler for the verb, and no longer accepts that verb. |
| Registration.HandleThenMatch | group.go:135-187 | Round trip: after registering a literal route, searching for its stored pattern finds that route with the wrapped handler and no parameters. |
| Registration.FoundAtStaticWalk | tree.go:321-333 | The reference lookup Found succeeds exactly when the static walk does, and reads the node it ends at. |
| Registration.AddPathKeepsRoutes | tree.go:224-307 | Inserting any pattern loses no route reached by a static walk. Every path whose static walk found a node before finds one with the same handler table and route after, across splits, priority bumps and re-sorting. |
| Registration.SecondRegistrationFails | tree.go:122-125 | Registering the same literal route for the same verb a second time fails, whatever the handler. |
| Registration.ReplaceFound | group.go:144-161 | Updating the node at an address changes what a static walk finds only for the walk that ends at that address. |
| Registration.HandleKeepsRoutes | group.go:144-161 | Registering a route keeps every route registered before it: its route string stays, and every verb other than the registered one and HEAD keeps its handler. |

## Left out

- The mutex held by `Handle`: registration is a sequential state update.
- The `EscapeAddedRoutes` branch: it runs the pattern through `url.ParseRequestURI`, which is a foreign URL parser. `unescapeSpecial` itself is modelled as a pure string function.
- `url.PathUnescape`: replaced by a percent-decoder per section 2.1 of RFC 3986. Every `%` must begin two hex digits and `+` is literal. Only the decode-or-raw fallback matters to search.
- `dumpTree`: debug formatting only.
- Handler bodies, `UseHandler`, `Request.Context`/`WithContext` and the embedded `*http.Request`: handlers are an opaque type parameter `H`.
- The `handlerMap` dual storage: `Set` always writes the map as well as the fixed field, so one map is the whole observable state.
- `NewGroup`, `LockedGroup`, `Use` and `WithGroup`: they concern slice-capacity aliasing of the middleware stack. A group is a path prefix plus a stack, and joining prefixes is `JoinPath`.
- The verb-named wrappers (`GET`, `POST` and so on): each is `Handle` with a fixed verb.
- The `TreeMux` fields are taken as the two booleans of `MuxConfig`. The mux's request entry point is not part of this model, so the round-trip theorems search the root with everything after the leading '/'. This mirrors how `addOne` inserts the pattern.
- Partial mutation before a panic: a failed insertion in the Go code can leave nodes behind, for example a catch-all child created before its name check fails. Here an error returns no tree.
- Matching.SearchSound: says nothing about `Fault` results. Those stand for Go runtime panics that a well-formed tree built by registration never reaches.
- Strings are sequences of `char` standing for bytes. The router decodes UTF-8 in exactly one place: the `range` loop of splitCommonPrefix at tree.go:283. That loop is modelled as written in `RuneRange`, and the tree follows the corrected byte scan (see "## Findings"). Nothing else decodes UTF-8.
- Tree.CommonScan: is the corrected byte scan. tree.go as written steps by runes, and the two agree only on labels whose shared bytes are ASCII (RuneRange.RuneScanAsciiAgrees).
- Tree.SplitCommonPrefix: the longest-common-prefix label and "at least one byte consumed" hold for tree.go as written only on ASCII labels. On multi-byte labels the Go split can mislabel the intermediary or consume nothing.
- Tree.SplitKeepsWellFormed: uses the corrected scan. tree.go as written can consume 0 bytes and create an empty label.
- Tree.Descend: uses the corrected scan. "At least one byte consumed" can fail for tree.go as written on multi-byte labels.
- Tree.DescendKeepsWellFormed: uses the corrected scan. tree.go as written can create an empty-label intermediary.
- Tree.DescendIntoSplit: uses the corrected scan. tree.go as written can label the intermediary with text that is not a common prefix.
- Tree.AddStatic: uses the corrected scan. tree.go as written can build a different tree, or never return, when labels share the lead byte of a multi-byte rune.
- Tree.AddPath: uses the corrected scan, for the same reason as AddStatic. Termination and the resulting tree are promised for the corrected split only.
- Registration.HandleThenMatch: stated for literal patterns, without wildcards, catch-alls or escapes. The names a wildcard pattern records are covered by AddPathRecordsNames. The value a wildcard captures is covered by Matching.WildcardCapturesSegment, and the value a catch-all captures by Matching.CatchAllCapturesRest.
- Registration.SecondRegistrationFails: stated for literal patterns only, for the same reason.
- Registration.AddPathKeepsRoutes: holds for the corrected byte scan. tree.go as written loses the "über" route when "änderung" is inserted beside it (RuneRange.SplitAsWrittenLosesRoute). It also speaks only of routes reached by walking static children. Routes below a wildcard or catch-all child are not stated to survive, because the reference lookup `Found` does not descend into those children.
- Handlers have no nil value: `H` is any type and a missing handler is `None`. The Go code treats a nil `HandlerFunc` as "no handler" in `setHandler` and in `search`, so registering a nil handler is not modelled.
- Registration.HandleKeepsRoutes: holds for the corrected byte scan, for the same reason as AddPathKeepsRoutes. HEAD is excluded because a GET registration may derive it, and an explicit HEAD may replace a derived one. Preservation is stated for routes reached by a static walk.

## Findings

| source | as written | input that shows it | evidently intended | confidence | as-written member | corrected member |
|---|---|---|---|---|---|---|
| tree.go:283 | `for i = range childNode.path` visits rune starts, so the common-prefix scan compares only the first byte of each UTF-8 rune. | Register "/über" then "/änderung": the split labels the intermediary "ä" and the old child "ber", and "/über" no longer matches. Register "/é" then "/ê": the split consumes nothing and addPath recurses forever. | The longest common byte prefix of the label and the token, which the function is named for and which the intermediary label and the index byte both assume. | medium (not executed) | RuneRange.RuneScanCounterexamples | Tree.SplitCommonPrefix |

=== FILE: group.dfy ===
/** Route registration from group.go: path checks and joining, middleware nesting,
    the `unescapeSpecial` rewriting, and `Group.Handle` with its `addOne` closure,
    which inserts a pattern into the tree and writes the handler at the leaf. */
module Group {
  import opened Wrappers
  import opened HandlerTable
  import opened Tree

  /** The two router switches registration reads (TreeMux fields). */
  datatype MuxConfig = MuxConfig(headCanUseGet: bool, redirectTrailingSlash: bool)

  /** A group: a path prefix and a middleware stack, outermost first. */
  datatype RouteGroup<!H> = RouteGroup(path: string, stack: seq<H -> H>)

  // ---------------------------------------------------------------------------
  // handlerWithMiddlewares

  /** stack[0](stack[1](...(stack[|stack|-1](h)))). */
  function Nest<H>(stack: seq<H -> H>, h: H): H
    decreases |stack|
  {
    if |stack| == 0 then h else stack[0](Nest(stack[1..], h))
  }

  /** `handlerWithMiddlewares`: wraps from the innermost (last) middleware outwards,
      so the first middleware of the stack ends up outermost. */
  method HandlerWithMiddlewares<H>(handler: H, stack: seq<H -> H>) returns (r: H)
    ensures r == Nest(stack, handler)
    ensures |stack| == 0 ==> r == handler
    ensures |stack| > 0 ==> r == stack[0](Nest(stack[1..], handler))
  {
    r := handler;
    var i := |stack|;
    while i > 0
      invariant 0 <= i <= |stack|
      invariant r == Nest(stack[i..], handler)
    {
      i := i - 1;
      assert stack[i..][1..] == stack[i + 1..];
      r := stack[i](r);
    }
    assert stack[0..] == stack;
  }

  // ---------------------------------------------------------------------------
  // checkPath, joinPath

  /** `checkPath`: every non-empty path must start with '/'. */
  function CheckPath(path: string): (r: Outcome<RouteError>)
    ensures r.Pass? <==> |path| == 0 || path[0] == '/'
    ensures r.Fail? ==> r.error == PathMustStartWithSlash(path)
  {
    if |path| > 0 && path[0] != '/' then Fail(PathMustStartWithSlash(path)) else Pass
  }

  /** `joinPath(base, path)`: the checked concatenation with at most one trailing '/'
      removed. */
  function JoinPath(base: string, path: string): (r: Result<string, RouteError>)
    ensures r.Err? <==> |path| > 0 && path[0] != '/'
    ensures r.Ok? ==> r.value <= base + path && |base + path| - |r.value| <= 1
    ensures r.Ok? ==> (|r.value| < |base + path| <==> |base + path| > 0 && (base + path)[|base + path| - 1] == '/')
  {
    if CheckPath(path).Fail? then Err(CheckPath(path).error)
    else
      var p := base + path;
      if |p| > 0 && p[|p| - 1] == '/' then Ok(p[..|p| - 1]) else Ok(p)
  }

  // ---------------------------------------------------------------------------
  // unescapeSpecial

  /** `strings.Replace(s, pat, rep, -1)`: every non-overlapping occurrence of `pat`,
      scanning left to right, is replaced by `rep`. */
  function ReplaceAll(s: string, pat: string, rep: string): (r: string)
    requires |pat| > 0
    ensures |rep| <= |pat| ==> |r| <= |s|
    ensures (forall i :: 0 <= i < |s| ==> s[i] != pat[0]) ==> r == s
    decreases |s|
  {
    if |s| == 0 then []
    else if pat <= s then rep + ReplaceAll(s[|pat|..], pat, rep)
    else [s[0]] + ReplaceAll(s[1..], pat, rep)
  }

  /** Every occurrence is replaced: scanning past text that cannot start the
      pattern, the next occurrence becomes the replacement and the scan resumes
      right after it, so occurrences do not overlap. */
  lemma {:induction false} ReplaceAllOccurrence(x: string, pat: string, rep: string, y: string)
    requires |pat| > 0 && forall i :: 0 <= i < |x| ==> x[i] != pat[0]
    ensures ReplaceAll(x + pat + y, pat, rep) == x + rep + ReplaceAll(y, pat, rep)
    decreases |x|
  {
    if |x| == 0 {
      assert x + pat + y == pat + y;
      ReplaceAllAtPattern(pat, rep, y);
    } else {
      var t := ReplaceAll(y, pat, rep);
      calc {
        ReplaceAll(x + pat + y, pat, rep);
      == { ReplaceAllPastHead(x, pat, rep, y); }
        [x[0]] + ReplaceAll(x[1..] + pat + y, pat, rep);
      == { ReplaceAllOccurrence(x[1..], pat, rep, y); }
        [x[0]] + (x[1..] + rep + t);
      == { assert [x[0]] + x[1..] == x; }
        x + rep + t;
      }
    }
  }

  lemma ReplaceAllPastHead(x: string, pat: string, rep: string, y: string)
    requires |x| > 0 && |pat| > 0 && x[0] != pat[0]
    ensures ReplaceAll(x + pat + y, pat, rep) == [x[0]] + ReplaceAll(x[1..] + pat + y, pat, rep)
  {
    ReplaceAllSkipsHead(x + pat + y, pat, rep);
    assert (x + pat + y)[1..] == x[1..] + pat + y;
  }

  lemma ReplaceAllAtPattern(pat: string, rep: string, y: string)
    requires |pat| > 0
    ensures ReplaceAll(pat + y, pat, rep) == rep + ReplaceAll(y, pat, rep)
  {
    assert (pat + y)[|pat|..] == y;
  }

  lemma ReplaceAllSkipsHead(s: string, pat: string, rep: string)
    requires |s| > 0 && |pat| > 0 && s[0] != pat[0]
    ensures ReplaceAll(s, pat, rep) == [s[0]] + ReplaceAll(s[1..], pat, rep)
  {
    assert !(pat <= s);
  }

  /** `unescapeSpecial`: undoes the escaping a URL parser applies to `*` and `\`
      right after a '/', applying five replacements in this fixed order. */
  function UnescapeSpecial(s: string): (r: string)
    ensures |r| <= |s|
    ensures (forall i :: 0 <= i < |s| ==> s[i] != '/') ==> r == s
  {
    var s1 := ReplaceAll(s, "/%2A", "/*");
    var s2 := ReplaceAll(s1, "/%5C:", "/\\:");
    var s3 := ReplaceAll(s2, "/%5C%5C:", "/%5C:");
    var s4 := ReplaceAll(s3, "/%5C%2A", "/%2A");
    ReplaceAll(s4, "/%5C%5C%2A", "/%5C%2A")
  }

  /** Every pattern the five replacements look for contains a '%', so a string
      without '%' comes through unchanged. */
  lemma UnescapeSpecialWithoutPercent(s: string)
    requires forall i :: 0 <= i < |s| ==> s[i] != '%'
    ensures UnescapeSpecial(s) == s
  {
    ReplaceAllKeepsWithoutPercent(s, "/%2A", "/*");
    ReplaceAllKeepsWithoutPercent(s, "/%5C:", "/\\:");
    ReplaceAllKeepsWithoutPercent(s, "/%5C%5C:", "/%5C:");
    ReplaceAllKeepsWithoutPercent(s, "/%5C%2A", "/%2A");
    ReplaceAllKeepsWithoutPercent(s, "/%5C%5C%2A", "/%5C%2A");
  }

  /** The first replacement at work: a URL parser's `%2A` right after a '/' turns
      back into the wildcard star, and the rest of the text is left alone. */
  lemma UnescapeStarAfterSlash(t: string)
    requires forall i :: 0 <= i < |t| ==> t[i] != '%'
    ensures UnescapeSpecial("/%2A" + t) == "/*" + t
  {
    var s := "/%2A" + t;
    assert s[4..] == t;
    ReplaceAllKeepsWithoutPercent(t, "/%2A", "/*");
    var s1 := "/*" + t;
    assert ReplaceAll(s, "/%2A", "/*") == s1;
    assert forall i :: 0 <= i < |s1| ==> s1[i] != '%';
    ReplaceAllKeepsWithoutPercent(s1, "/%5C:", "/\\:");
    ReplaceAllKeepsWithoutPercent(s1, "/%5C%5C:", "/%5C:");
    ReplaceAllKeepsWithoutPercent(s1, "/%5C%2A", "/%2A");
    ReplaceAllKeepsWithoutPercent(s1, "/%5C%5C%2A", "/%5C%2A");
  }

  /** A pattern containing '%' cannot occur in text without '%'. */
  lemma {:induction false} ReplaceAllKeepsWithoutPercent(s: string, pat: string, rep: string)
    requires |pat| > 1 && pat[1] == '%'
    requires forall i :: 0 <= i < |s| ==> s[i] != '%'
    ensures ReplaceAll(s, pat, rep) == s
    decreases |s|
  {
    if |s| > 0 {
      assert !(pat <= s) by {
        assert |s| < 2 || s[1] != pat[1];
      }
      ReplaceAllKeepsWithoutPercent(s[1..], pat, rep);
      assert [s[0]] + s[1..] == s;
    }
  }

  // ---------------------------------------------------------------------------
  // Handle and addOne

  /** The first handler write of `addOne`, then the implicit HEAD derived from GET
      when HeadCanUseGet is on and the node has no HEAD handler. */
  function SetLeafHandlers<H>(t: Option<HandlerMap<H>>, path: string, verb: string, handler: H, headCanUseGet: bool)
    : (r: Result<HandlerMap<H>, RouteError>)
    ensures r.Err? <==> SetHandler(t, path, verb, handler, false).Err?
    ensures r.Ok? ==> Get(r.value, verb) == Some(handler)
    ensures r.Ok? && headCanUseGet && verb == GET ==> Get(r.value, HEAD).Some?
    ensures r.Ok? && headCanUseGet && verb == GET && (t.None? || HEAD !in t.value.m) ==>
              Get(r.value, HEAD) == Some(handler) && r.value.implicitHead
    ensures r.Ok? && !(headCanUseGet && verb == GET) ==>
              forall v :: v != verb ==> Get(r.value, v) == Get(t.GetOr(EmptyTable()), v)
    ensures r.Ok? ==> forall v :: v != verb && v != HEAD ==> Get(r.value, v) == Get(t.GetOr(EmptyTable()), v)
    ensures r.Ok? ==> !MayWrite(r.value, verb)
  {
    var t1 :- SetHandler(t, path, verb, handler, false);
    if headCanUseGet && verb == GET && Get(t1, HEAD).None? then
      SetHandler(Some(t1), path, HEAD, handler, true)
    else Ok(t1)
  }

  /** The leaf part of `addOne`: the route string is recorded on first registration
      and must be the same afterwards; addSlash is only ever set; then the handlers. */
  function UpdateLeaf<H>(leaf: Node<H>, fullPath: string, verb: string, handler: H, addSlash: bool, headCanUseGet: bool)
    : (r: Result<Node<H>, RouteError>)
    ensures leaf.route != "" && leaf.route != fullPath ==> r == Err(RouteConflict(leaf.route, fullPath))
    ensures r.Ok? ==> SameChildren(leaf, r.value) && r.value.path == leaf.path
    ensures r.Ok? ==> r.value.route == fullPath && r.value.addSlash == (leaf.addSlash || addSlash)
    ensures r.Ok? ==> r.value.handlers.Some? && Get(r.value.handlers.value, verb) == Some(handler)
    ensures r.Ok? ==> !MayWrite(r.value.handlers.value, verb)
    ensures r.Ok? ==> forall v :: v != verb && v != HEAD ==>
              Get(r.value.handlers.value, v) == Get(leaf.handlers.GetOr(EmptyTable()), v)
    ensures r.Ok? ==> r.value == leaf.(route := fullPath, addSlash := leaf.addSlash || addSlash,
                                       handlers := r.value.handlers)
  {
    if leaf.route != "" && leaf.route != fullPath then Err(RouteConflict(leaf.route, fullPath))
    else
      var t :- SetLeafHandlers(leaf.handlers, leaf.path, verb, handler, headCanUseGet);
      Ok(leaf.(route := fullPath, addSlash := leaf.addSlash || addSlash, handlers := Some(t)))
  }

  /** `addOne(fullPath)`: insert everything after the leading '/' and update the leaf. */
  function AddOne<H>(root: Node<H>, fullPath: string, verb: string, handler: H, addSlash: bool, headCanUseGet: bool)
    : (r: Result<Node<H>, RouteError>)
    requires WellFormed(root) && |fullPath| > 0
    ensures r.Ok? ==> WellFormed(r.value) && r.value.path == root.path
  {
    var ins :- AddPath(root, fullPath[1..], [], false);
    var (t, a) := ins;
    var leaf :- UpdateLeaf(At(t, a).value, fullPath, verb, handler, addSlash, headCanUseGet);
    ReplaceKeepsWellFormed(t, a, leaf);
    Ok(Replace(t, a, leaf))
  }

  /** Handle's trailing-slash rule: a final '/' is dropped, and the addSlash flag set,
      only when the path is longer than "/" and RedirectTrailingSlash is on. */
  function TrimTrailingSlash(path: string, redirectTrailingSlash: bool): (r: (string, bool))
    ensures r.1 <==> |path| > 1 && path[|path| - 1] == '/' && redirectTrailingSlash
    ensures r.1 ==> r.0 + "/" == path
    ensures !r.1 ==> r.0 == path
  {
    if |path| > 1 && path[|path| - 1] == '/' && redirectTrailingSlash then (path[..|path| - 1], true)
    else (path, false)
  }

  /** `Group.Handle(method, path, handler)` without the lock and without the
      EscapeAddedRoutes branch. */
  function Handle<H>(root: Node<H>, cfg: MuxConfig, g: RouteGroup<H>, verb: string, path: string, handler: H)
    : (r: Result<Node<H>, RouteError>)
    requires WellFormed(root)
    ensures |path| > 0 && path[0] != '/' ==> r == Err(PathMustStartWithSlash(path))
    ensures CheckPath(path).Pass? && |g.path + path| == 0 ==> r == Err(EmptyPath)
    ensures r.Ok? ==> WellFormed(r.value) && r.value.path == root.path
  {
    var h := Nest(g.stack, handler);
    if CheckPath(path).Fail? then Err(CheckPath(path).error)
    else
      var full := g.path + path;
      if |full| == 0 then Err(EmptyPath)
      else
        var (p, addSlash) := TrimTrailingSlash(full, cfg.redirectTrailingSlash);
        AddOne(root, p, verb, h, addSlash, cfg.headCanUseGet)
  }
}

=== FILE: handlers.dfy ===
/** The per-node verb -> handler table (tree.go `handlerMap`) and `node.setHandler`.
    tree.go keeps fixed fields for the seven standard verbs beside a map, but `Set`
    writes the map for every verb and `Get` reads the field that `Set` wrote, so one
    map is the whole observable state. */
module HandlerTable {
  import opened Wrappers

  const GET: string := "GET"
  const HEAD: string := "HEAD"

  datatype HandlerMap<H> = HandlerMap(m: map<string, H>, implicitHead: bool)

  function EmptyTable<H>(): HandlerMap<H> {
    HandlerMap(map[], false)
  }

  /** The handler registered for `verb`, or None (Go's nil HandlerFunc). */
  function Get<H>(t: HandlerMap<H>, verb: string): (r: Option<H>)
    ensures r.Some? <==> verb in t.m
    ensures r.Some? ==> r.value == t.m[verb]
  {
    if verb in t.m then Some(t.m[verb]) else None
  }

  /** Writes `verb`; every other verb keeps its handler and the flag is untouched. */
  function Set<H>(t: HandlerMap<H>, verb: string, h: H): (r: HandlerMap<H>)
    ensures Get(r, verb) == Some(h)
    ensures forall v :: v != verb ==> Get(r, v) == Get(t, v)
    ensures r.implicitHead == t.implicitHead
  {
    t.(m := t.m[verb := h])
  }

  /** A verb may be written when it has no handler yet, or when it is HEAD and the
      current HEAD handler was only derived from GET. */
  predicate MayWrite<H>(t: HandlerMap<H>, verb: string) {
    Get(t, verb).None? || (verb == HEAD && t.implicitHead)
  }

  /** `node.setHandler`: `t` is the node's table (None while the node has none yet),
      `path` only feeds the error message. */
  function SetHandler<H>(t: Option<HandlerMap<H>>, path: string, verb: string, h: H, implicitHead: bool)
    : (r: Result<HandlerMap<H>, RouteError>)
    ensures r.Err? <==> t.Some? && verb in t.value.m && (verb != HEAD || !t.value.implicitHead)
    ensures r.Err? ==> r.error == DuplicateHandler(path, verb)
    ensures r.Ok? ==> Get(r.value, verb) == Some(h)
    ensures r.Ok? ==> forall v :: v != verb ==> Get(r.value, v) == Get(t.GetOr(EmptyTable()), v)
    ensures r.Ok? && verb == HEAD ==> r.value.implicitHead == implicitHead
    ensures r.Ok? && verb != HEAD ==> r.value.implicitHead == (t.Some? && t.value.implicitHead)
  {
    var t0 := t.GetOr(EmptyTable());
    if !MayWrite(t0, verb) then
      Err(DuplicateHandler(path, verb))
    else
      var t1 := Set(t0, verb, h);
      Ok(if verb == HEAD then t1.(implicitHead := implicitHead) else t1)
  }

  /** Registering GET on a table without GET or HEAD and then deriving HEAD from it
      (the HeadCanUseGet rule) leaves HEAD overridable: an explicit HEAD afterwards
      succeeds, keeps GET, and clears the implicit flag so a second explicit HEAD fails. */
  lemma ImplicitHeadThenExplicit<H>(t: Option<HandlerMap<H>>, path: string, h: H, h2: H)
    requires t.None? || (GET !in t.value.m && HEAD !in t.value.m)
    ensures var r1 := SetHandler(t, path, GET, h, false);
      && r1.Ok?
      && var r2 := SetHandler(Some(r1.value), path, HEAD, h, true);
      && r2.Ok? && Get(r2.value, HEAD) == Some(h) && r2.value.implicitHead
      && var r3 := SetHandler(Some(r2.value), path, HEAD, h2, false);
      && r3.Ok? && Get(r3.value, HEAD) == Some(h2) && Get(r3.value, GET) == Some(h)
      && !r3.value.implicitHead
      && SetHandler(Some(r3.value), path, HEAD, h, false).Err?
  {
    var r1 := SetHandler(t, path, GET, h, false);
    assert Get(r1.value, HEAD).None?;
    var r2 := SetHandler(Some(r1.value), path, HEAD, h, true);
    assert Get(r2.value, GET) == Some(h);
  }
}

=== FILE: params.dfy ===
/** The parameter accessors of request.go: lookups over the ordered list of
    (name, value) pairs a match produces, and decimal parsing of a value. */
module Params {
  import opened Wrappers

  datatype Param = Param(name: string, value: string)

  /** A request as the handlers see it; the embedded *http.Request and the context
      are not part of this model. */
  datatype Request = Request(route: string, params: seq<Param>)

  /** `Params.Get`: the value of the first parameter with this name. */
  function Get(ps: seq<Param>, name: string): (r: (string, bool))
    ensures r.1 <==> exists i :: 0 <= i < |ps| && ps[i].name == name
    ensures r.1 ==> exists i :: 0 <= i < |ps| && ps[i].name == name && ps[i].value == r.0
                                && forall j :: 0 <= j < i ==> ps[j].name != name
    ensures !r.1 ==> r.0 == ""
  {
    if |ps| == 0 then ("", false)
    else if ps[0].name == name then (ps[0].value, true)
    else
      var r := Get(ps[1..], name);
      assert r.1 ==> exists i :: 1 <= i < |ps| && ps[i].name == name && ps[i].value == r.0
                                 && forall j :: 0 <= j < i ==> ps[j].name != name by {
        if r.1 {
          var i :| 0 <= i < |ps| - 1 && ps[1..][i].name == name && ps[1..][i].value == r.0
                   && forall j :: 0 <= j < i ==> ps[1..][j].name != name;
          assert ps[i + 1].name == name;
          assert forall j :: 1 <= j < i + 1 ==> ps[j].name == ps[1..][j - 1].name;
        }
      }
      assert (exists i :: 0 <= i < |ps| && ps[i].name == name) ==>
             (exists i :: 0 <= i < |ps| - 1 && ps[1..][i].name == name) by {
        if i :| 0 <= i < |ps| && ps[i].name == name {
          assert ps[1..][i - 1].name == name;
        }
      }
      r
  }

  /** `Params.Text`: the value part of `Get`, "" when the name is absent. */
  function Text(ps: seq<Param>, name: string): (r: string)
    ensures (forall i :: 0 <= i < |ps| ==> ps[i].name != name) ==> r == ""
    ensures forall i :: 0 <= i < |ps| && ps[i].name == name ==>
              (forall j :: 0 <= j < i ==> ps[j].name != name) ==> r == ps[i].value
  {
    Get(ps, name).0
  }

  /** `Request.Param`: the request's parameter text. */
  function RequestParam(req: Request, key: string): (r: string)
    ensures r == Text(req.params, key)
    ensures (forall i :: 0 <= i < |req.params| ==> req.params[i].name != key) ==> r == ""
  {
    Text(req.params, key)
  }

  /** `Params.Map`: a name -> value map; an empty list gives the empty map (Go's nil),
      and a name that occurs twice keeps its last value. */
  function ToMap(ps: seq<Param>): (m: map<string, string>)
    ensures KeysAreNames(ps, m)
    ensures LastValueWins(ps, m)
  {
    if |ps| == 0 then map[]
    else
      var init := ps[..|ps| - 1];
      var last := ps[|ps| - 1];
      var m0 := ToMap(init);
      ToMapKeysStep(ps, m0);
      ToMapValuesStep(ps, m0);
      m0[last.name := last.value]
  }

  ghost predicate KeysAreNames(ps: seq<Param>, m: map<string, string>) {
    forall k :: k in m <==> exists i :: 0 <= i < |ps| && ps[i].name == k
  }

  ghost predicate LastValueWins(ps: seq<Param>, m: map<string, string>) {
    forall i :: 0 <= i < |ps| ==>
      (forall j :: i < j < |ps| ==> ps[j].name != ps[i].name) ==> ps[i].name in m && m[ps[i].name] == ps[i].value
  }

  lemma ToMapKeysStep(ps: seq<Param>, m0: map<string, string>)
    requires |ps| > 0 && KeysAreNames(ps[..|ps| - 1], m0)
    ensures KeysAreNames(ps, m0[ps[|ps| - 1].name := ps[|ps| - 1].value])
  {
    var init, last := ps[..|ps| - 1], ps[|ps| - 1];
    var m := m0[last.name := last.value];
    forall k | k in m
      ensures exists i :: 0 <= i < |ps| && ps[i].name == k
    {
      if k != last.name {
        var i :| 0 <= i < |init| && init[i].name == k;
        assert ps[i].name == k;
      } else {
        assert ps[|ps| - 1].name == k;
      }
    }
    forall k, i | 0 <= i < |ps| && ps[i].name == k
      ensures k in m
    {
      if i < |init| { assert init[i].name == k; }
    }
  }

  lemma ToMapValuesStep(ps: seq<Param>, m0: map<string, string>)
    requires |ps| > 0 && LastValueWins(ps[..|ps| - 1], m0)
    ensures LastValueWins(ps, m0[ps[|ps| - 1].name := ps[|ps| - 1].value])
  {
    var init, last := ps[..|ps| - 1], ps[|ps| - 1];
    forall i | 0 <= i < |ps| - 1 && (forall j :: i < j < |ps| ==> ps[j].name != ps[i].name)
      ensures ps[i].name in m0 && m0[ps[i].name] == ps[i].value
    {
      assert init[i] == ps[i];
      assert forall j :: i < j < |init| ==> init[j].name == ps[j].name;
    }
  }

  /** Where names are distinct, the map and `Get` agree on every name. */
  lemma MapAgreesWithGet(ps: seq<Param>, name: string)
    requires forall i, j :: 0 <= i < j < |ps| ==> ps[i].name != ps[j].name
    requires Get(ps, name).1
    ensures name in ToMap(ps) && ToMap(ps)[name] == Get(ps, name).0
  {
  }

  // ---------------------------------------------------------------------------
  // strconv.ParseUint(s, 10, 64)

  datatype NumError = ErrSyntax | ErrRange

  const MaxUint64: nat := 0xFFFF_FFFF_FFFF_FFFF
  const TwoTo32: nat := 0x1_0000_0000

  predicate IsDigit(c: char) {
    '0' <= c <= '9'
  }

  predicate AllDigits(s: string) {
    forall i :: 0 <= i < |s| ==> IsDigit(s[i])
  }

  /** The value of a decimal numeral, read left to right. */
  function DecimalValue(s: string): nat
    requires AllDigits(s)
  {
    if |s| == 0 then 0 else DecimalValue(s[..|s| - 1]) * 10 + (s[|s| - 1] as int - '0' as int)
  }

  /** The position of the first non-digit, or |s|. */
  function FirstNonDigit(s: string): (i: nat)
    ensures i <= |s| && AllDigits(s[..i])
    ensures i < |s| ==> !IsDigit(s[i])
  {
    if |s| == 0 || !IsDigit(s[0]) then 0
    else
      assert s[..1 + FirstNonDigit(s[1..])] == [s[0]] + s[1..][..FirstNonDigit(s[1..])];
      1 + FirstNonDigit(s[1..])
  }

  lemma {:induction false} DecimalValueMonotone(s: string, i: nat)
    requires AllDigits(s) && i <= |s|
    ensures DecimalValue(s[..i]) <= DecimalValue(s)
    decreases |s|
  {
    if i < |s| {
      assert s[..|s| - 1][..i] == s[..i];
      DecimalValueMonotone(s[..|s| - 1], i);
    } else {
      assert s[..i] == s;
    }
  }

  /** `strconv.ParseUint(s, 10, 64)`. The digits are read left to right; a non-digit is
      a syntax error (value 0), and a value that would pass 2^64 - 1 is a range error
      (value 2^64 - 1), whichever comes first. */
  method ParseUint64(s: string) returns (v: nat, err: Option<NumError>)
    ensures err.None? <==> |s| > 0 && AllDigits(s) && DecimalValue(s) <= MaxUint64
    ensures err.None? ==> v == DecimalValue(s)
    ensures |s| == 0 ==> err == Some(ErrSyntax)
    ensures var i := FirstNonDigit(s);
      0 < |s| && i < |s| && DecimalValue(s[..i]) <= MaxUint64 ==> err == Some(ErrSyntax)
    ensures var i := FirstNonDigit(s);
      DecimalValue(s[..i]) > MaxUint64 ==> err == Some(ErrRange)
    ensures err == Some(ErrSyntax) ==> v == 0
    ensures err == Some(ErrRange) ==> v == MaxUint64
  {
    if |s| == 0 {
      return 0, Some(ErrSyntax);
    }
    var cutoff := MaxUint64 / 10 + 1;
    var n: nat := 0;
    var i := 0;
    while i < |s|
      invariant 0 <= i <= |s| && AllDigits(s[..i])
      invariant n == DecimalValue(s[..i]) && n <= MaxUint64
    {
      assert s[..i + 1][..i] == s[..i];
      if !IsDigit(s[i]) {
        assert FirstNonDigit(s) == i;
        return 0, Some(ErrSyntax);
      }
      var d := s[i] as int - '0' as int;
      assert DecimalValue(s[..i + 1]) == n * 10 + d;
      if n >= cutoff {
        assert n * 10 >= cutoff * 10;
        RangeAt(s, i);
        return MaxUint64, Some(ErrRange);
      }
      var n1 := n * 10 + d;
      if n1 > MaxUint64 {
        RangeAt(s, i);
        return MaxUint64, Some(ErrRange);
      }
      n := n1;
      i := i + 1;
    }
    assert s[..i] == s;
    v, err := n, None;
  }

  /** Once the digits up to and including position i overflow, so does the whole
      digit prefix of s. */
  lemma RangeAt(s: string, i: nat)
    requires i < |s| && AllDigits(s[..i + 1])
    requires DecimalValue(s[..i + 1]) > MaxUint64
    ensures DecimalValue(s[..FirstNonDigit(s)]) > MaxUint64
    ensures AllDigits(s) ==> DecimalValue(s) > MaxUint64
  {
    var f := FirstNonDigit(s);
    assert f > i by {
      assert forall j :: 0 <= j <= i ==> IsDigit(s[..i + 1][j]) && s[..i + 1][j] == s[j];
    }
    assert s[..f][..i + 1] == s[..i + 1];
    DecimalValueMonotone(s[..f], i + 1);
    if AllDigits(s) {
      assert s[..f] == s;
    }
  }

  /** `Params.Uint64`: an absent parameter is "" and so a syntax error. */
  method Uint64(ps: seq<Param>, name: string) returns (v: nat, err: Option<NumError>)
    ensures err.None? <==> var t := Text(ps, name);
      |t| > 0 && AllDigits(t) && DecimalValue(t) <= MaxUint64
    ensures err.None? ==> v == DecimalValue(Text(ps, name))
    ensures (forall i :: 0 <= i < |ps| ==> ps[i].name != name) ==> err == Some(ErrSyntax)
  {
    v, err := ParseUint64(Text(ps, name));
  }

  /** `Params.Uint32`: parsed at 64 bits and then truncated, so values from 2^32 up to
      2^64 - 1 come back reduced modulo 2^32 without an error. */
  method Uint32(ps: seq<Param>, name: string) returns (v: nat, err: Option<NumError>)
    ensures err.None? <==> var t := Text(ps, name);
      |t| > 0 && AllDigits(t) && DecimalValue(t) <= MaxUint64
    ensures err.None? ==> v == DecimalValue(Text(ps, name)) % TwoTo32 && v < TwoTo32
    ensures err.Some? ==> v == 0
  {
    var n, e := ParseUint64(Text(ps, name));
    if e.Some? {
      return 0, e;
    }
    return n % TwoTo32, None;
  }
}

=== FILE: percent.dfy ===
/** Percent-decoding of a captured path segment, the part of Go's `url.PathUnescape`
    that search relies on (section 2.1 of RFC 3986): every `%` must be followed by two
    hexadecimal digits, and a `+` is left alone in path mode. Strings are sequences of
    bytes, written as `char`s below 256. */
module PercentEncoding {
  import opened Wrappers

  predicate IsHex(c: char) {
    ('0' <= c <= '9') || ('a' <= c <= 'f') || ('A' <= c <= 'F')
  }

  function HexValue(c: char): (v: nat)
    requires IsHex(c)
    ensures v < 16
  {
    if '0' <= c <= '9' then c as int - '0' as int
    else if 'a' <= c <= 'f' then c as int - 'a' as int + 10
    else c as int - 'A' as int + 10
  }

  /** Upper-case hex digit for a nibble. */
  function HexDigit(v: nat): (c: char)
    requires v < 16
    ensures IsHex(c) && HexValue(c) == v
  {
    if v < 10 then ('0' as int + v) as char else ('A' as int + v - 10) as char
  }

  /** `url.PathUnescape`: None where Go returns an EscapeError. */
  function PathUnescape(s: string): (r: Option<string>)
    ensures r.Some? ==> |r.value| <= |s|
    ensures r.Some? && |s| > 0 && s[0] != '%' ==> |r.value| > 0 && r.value[0] == s[0]
    decreases |s|
  {
    if |s| == 0 then Some([])
    else if s[0] == '%' then
      if |s| < 3 || !IsHex(s[1]) || !IsHex(s[2]) then None
      else
        match PathUnescape(s[3..])
        case None => None
        case Some(t) => Some([(HexValue(s[1]) * 16 + HexValue(s[2])) as char] + t)
    else
      match PathUnescape(s[1..])
      case None => None
      case Some(t) => Some([s[0]] + t)
  }

  /** The value search stores for a captured token: the decoded text, or the raw token
      when decoding fails. */
  function DecodeOrRaw(s: string): (r: string)
    ensures PathUnescape(s).None? ==> r == s
    ensures PathUnescape(s).Some? ==> r == PathUnescape(s).value && |r| <= |s|
  {
    match PathUnescape(s)
    case Some(d) => d
    case None => s
  }

  /** Encodes every byte as `%XY`. */
  function EscapeAll(s: string): (r: string)
    requires forall i :: 0 <= i < |s| ==> s[i] as int < 256
    ensures |r| == 3 * |s|
  {
    if |s| == 0 then []
    else ['%', HexDigit(s[0] as int / 16), HexDigit(s[0] as int % 16)] + EscapeAll(s[1..])
  }

  /** Text without `%` decodes to itself, so plain segments reach handlers unchanged. */
  lemma {:induction false} UnescapeWithoutPercent(s: string)
    requires forall i :: 0 <= i < |s| ==> s[i] != '%'
    ensures PathUnescape(s) == Some(s)
    decreases |s|
  {
    if |s| > 0 {
      UnescapeWithoutPercent(s[1..]);
      assert [s[0]] + s[1..] == s;
    }
  }

  /** Decoding undoes a full percent-encoding of any byte string. */
  lemma {:induction false} UnescapeEscapeAll(s: string)
    requires forall i :: 0 <= i < |s| ==> s[i] as int < 256
    ensures PathUnescape(EscapeAll(s)) == Some(s)
    decreases |s|
  {
    if |s| > 0 {
      var e := EscapeAll(s);
      var hi, lo := HexDigit(s[0] as int / 16), HexDigit(s[0] as int % 16);
      assert e == ['%', hi, lo] + EscapeAll(s[1..]);
      assert e[3..] == EscapeAll(s[1..]);
      UnescapeEscapeAll(s[1..]);
      NibblesRecombine(s[0] as int);
      assert [s[0]] + s[1..] == s;
    }
  }

  lemma NibblesRecombine(b: int)
    requires 0 <= b < 256
    ensures HexValue(HexDigit(b / 16)) * 16 + HexValue(HexDigit(b % 16)) == b
  {
  }

  /** Position i holds a `%` that does not start a two-hex-digit escape. */
  predicate BadEscapeAt(s: string, i: nat)
    requires i < |s|
  {
    s[i] == '%' && (i + 2 >= |s| || !IsHex(s[i + 1]) || !IsHex(s[i + 2]))
  }

  /** Every `%` in `s` starts a two-hex-digit escape. */
  predicate WellEscaped(s: string) {
    forall i :: 0 <= i < |s| ==> !BadEscapeAt(s, i)
  }

  /** The decode-or-raw fallback: any `%` that does not start a two-digit escape,
      wherever it stands, makes decoding fail, and then the raw token is kept. */
  lemma {:induction false} DecodeOrRawFallback(s: string, i: nat)
    requires i < |s| && BadEscapeAt(s, i)
    ensures PathUnescape(s).None?
    ensures DecodeOrRaw(s) == s
    decreases i
  {
    if s[0] != '%' {
      DecodeOrRawFallback(s[1..], i - 1);
    } else if i > 0 && !BadEscapeAt(s, 0) {
      assert i >= 3;
      assert BadEscapeAt(s[3..], i - 3);
      DecodeOrRawFallback(s[3..], i - 3);
    }
  }

  /** The converse: when every `%` starts a two-digit escape, decoding succeeds. */
  lemma {:induction false} DecodeWellEscaped(s: string)
    requires WellEscaped(s)
    ensures PathUnescape(s).Some?
    decreases |s|
  {
    if |s| > 0 {
      var k := if s[0] == '%' then 3 else 1;
      assert !BadEscapeAt(s, 0);
      forall i | 0 <= i < |s[k..]|
        ensures !BadEscapeAt(s[k..], i)
      {
        assert !BadEscapeAt(s, i + k);
      }
      DecodeWellEscaped(s[k..]);
    }
  }

  /** Decoding succeeds exactly on well-escaped text; otherwise the raw text is kept. */
  lemma DecodeSucceedsExactly(s: string)
    ensures PathUnescape(s).Some? <==> WellEscaped(s)
    ensures !WellEscaped(s) ==> DecodeOrRaw(s) == s
  {
    if WellEscaped(s) {
      DecodeWellEscaped(s);
    } else {
      var i :| 0 <= i < |s| && BadEscapeAt(s, i);
      DecodeOrRawFallback(s, i);
    }
  }
}

=== FILE: registration.dfy ===
/** Properties that relate insertion, registration and search: the names a leaf
    records, the static walk a literal pattern takes, the round trip from
    registering a literal route to matching it, and the preservation of every
    existing static route by a later insertion. */
module Registration {
  import opened Wrappers
  import opened HandlerTable
  import opened Tree
  import opened Matching
  import opened Group

  // ---------------------------------------------------------------------------
  // Reference definitions

  /** The parameter names a pattern declares, in order, read token by token the way
      insertion reads it: a token starting with ':' or '*' outside a static token
      declares the rest of the token as a name; the text of every other token,
      including a token begun with an escape, is literal. */
  function PatternNames(path: string, inStaticToken: bool): seq<string>
    decreases |path|
  {
    if |path| == 0 then []
    else if path[0] == '/' then PatternNames(path[1..], false)
    else
      var e := FirstSlash(path);
      if !inStaticToken && path[0] == ':' then [path[1..e]] + PatternNames(path[e..], false)
      else if !inStaticToken && path[0] == '*' then [path[1..e]]
      else PatternNames(path[e..], false)
  }

  /** A pattern with no wildcard, catch-all or escape characters. */
  predicate Literal(p: string) {
    forall i :: 0 <= i < |p| ==> p[i] != ':' && p[i] != '*' && p[i] != '\\'
  }

  /** The walk through static children only, the way the static tier of search
      takes it: the child with the path's first byte whose label prefixes the path. */
  function StaticAddr<H>(n: Node<H>, p: string): Option<Addr>
    decreases |p|, n
  {
    if |p| == 0 then Some([])
    else
      var k := IndexOf(n.staticIndices, p[0]);
      if k < |n.staticIndices| && k < |n.staticChild| && n.staticChild[k].path <= p then
        match StaticAddr(n.staticChild[k], p[|n.staticChild[k].path|..])
        case Some(a) => Some([Static(k)] + a)
        case None => None
      else None
  }

  /** One step of the static walk: through child j, whose label is the first `skip`
      bytes of the path. */
  lemma StaticAddrStep<H>(t: Node<H>, p: string, j: nat, skip: nat, rest: Addr)
    requires 1 <= skip <= |p| && j < |t.staticChild| && j < |t.staticIndices|
    requires IndexOf(t.staticIndices, p[0]) == j && t.staticChild[j].path == p[..skip]
    requires StaticAddr(t.staticChild[j], p[skip..]) == Some(rest)
    ensures StaticAddr(t, p) == Some([Static(j)] + rest)
  {
  }

  // ---------------------------------------------------------------------------
  // Names recorded at the leaf

  lemma MidTokenNames(path: string, skip: nat)
    requires 1 <= skip <= FirstSlash(path)
    ensures PatternNames(path[skip..], true) == PatternNames(path[FirstSlash(path)..], false)
  {
    var e := FirstSlash(path);
    if skip < e {
      var rest := path[skip..];
      assert FirstSlash(rest) == e - skip by {
        assert forall i :: 0 <= i < e - skip ==> rest[i] == path[skip + i];
        if e < |path| { assert rest[e - skip] == '/'; }
      }
      assert rest[e - skip..] == path[e..];
    }
  }

  /** The leaf addPath returns records exactly the names collected on the way down
      followed by the names the rest of the pattern declares (when there are any). */
  lemma {:induction false} AddPathRecordsNames<H>(n: Node<H>, path: string, wildcards: seq<string>, inStaticToken: bool)
    requires WellFormed(n)
    requires AddPath(n, path, wildcards, inStaticToken).Ok?
    ensures var (t, a) := AddPath(n, path, wildcards, inStaticToken).value;
      var all := wildcards + PatternNames(path, inStaticToken);
      |all| > 0 ==> At(t, a).value.leafWildcardNames == all
    decreases |path|, 1
  {
    if |path| == 0 {
    } else if path[0] == '*' && !inStaticToken {
      assert FirstSlash(path) == |path|;
    } else if path[0] == ':' && !inStaticToken {
      WildcardRecordsNames(n, path, wildcards);
    } else {
      StaticRecordsNames(n, path, wildcards, inStaticToken);
    }
  }

  lemma {:induction false} WildcardRecordsNames<H>(n: Node<H>, path: string, wildcards: seq<string>)
    requires WellFormed(n) && |path| > 0 && path[0] == ':'
    requires AddWildcard(n, path, wildcards).Ok?
    ensures var (t, a) := AddWildcard(n, path, wildcards).value;
      At(t, a).value.leafWildcardNames == wildcards + PatternNames(path, false)
    decreases |path|, 0
  {
    var e := TokenEnd(path);
    var wc := n.wildcardChild.GetOr(NewNode("wildcard"));
    var names := wildcards + [path[1..e]];
    AddPathRecordsNames(wc, path[e..], names, false);
    var sub := AddPath(wc, path[e..], names, false).value;
    AtCons(n.(wildcardChild := Some(sub.0)), Wild, sub.1);
    assert names + PatternNames(path[e..], false) == wildcards + PatternNames(path, false);
  }

  lemma {:induction false} StaticRecordsNames<H>(n: Node<H>, path: string, wildcards: seq<string>, inStaticToken: bool)
    requires WellFormed(n) && |path| > 0
    requires inStaticToken || (path[0] != '*' && path[0] != ':')
    requires AddStatic(n, path, wildcards, inStaticToken).Ok?
    ensures var (t, a) := AddStatic(n, path, wildcards, inStaticToken).value;
      var all := wildcards + PatternNames(path, inStaticToken);
      |all| > 0 ==> At(t, a).value.leafWildcardNames == all
    decreases |path|, 0
  {
    var child, skip, sub := StaticUnfold(n, path, wildcards, inStaticToken);
    AddPathRecordsNames(child, path[skip..], wildcards, path[0] != '/');
    StaticTokenNames(path, inStaticToken, skip);
  }

  /** The names of a pattern that starts with a static token are the names after any
      point inside that token. */
  lemma StaticTokenNames(path: string, inStaticToken: bool, skip: nat)
    requires |path| > 0 && (inStaticToken || (path[0] != '*' && path[0] != ':'))
    requires 1 <= skip <= TokenEnd(path)
    ensures PatternNames(path, inStaticToken) == PatternNames(path[skip..], path[0] != '/')
  {
    if path[0] != '/' {
      MidTokenNames(path, skip);
    }
  }

  /** One step of static insertion, whichever branch it takes: insertion continues in
      some well-formed child with the pattern after `skip` bytes (1 for a "/" token,
      at most the token otherwise), and the leaf it returns is the leaf addStatic
      returns. */
  lemma StaticUnfold<H>(n: Node<H>, path: string, wildcards: seq<string>, inStaticToken: bool)
    returns (child: Node<H>, skip: nat, sub: (Node<H>, Addr))
    requires WellFormed(n) && |path| > 0
    requires AddStatic(n, path, wildcards, inStaticToken).Ok?
    ensures 1 <= skip <= TokenEnd(path) && WellFormed(child)
    ensures AddPath(child, path[skip..], wildcards, path[0] != '/') == Ok(sub)
    ensures var (t, a) := AddStatic(n, path, wildcards, inStaticToken).value;
      At(t, a) == At(sub.0, sub.1)
  {
    var e := TokenEnd(path);
    var token := StaticToken(path, inStaticToken);
    if IndexOf(n.staticIndices, token[0]) < |n.staticIndices| {
      child, skip, sub := UnfoldExisting(n, path, wildcards, inStaticToken);
    } else {
      child, skip, sub := UnfoldNew(n, path, wildcards, inStaticToken);
    }
  }

  lemma UnfoldExisting<H>(n: Node<H>, path: string, wildcards: seq<string>, inStaticToken: bool)
    returns (child: Node<H>, skip: nat, sub: (Node<H>, Addr))
    requires WellFormed(n) && |path| > 0
    requires AddStatic(n, path, wildcards, inStaticToken).Ok?
    requires var e := TokenEnd(path);
      var token := StaticToken(path, inStaticToken);
      IndexOf(n.staticIndices, token[0]) < |n.staticIndices|
    ensures 1 <= skip <= TokenEnd(path) && WellFormed(child)
    ensures AddPath(child, path[skip..], wildcards, path[0] != '/') == Ok(sub)
    ensures var (t, a) := AddStatic(n, path, wildcards, inStaticToken).value;
      At(t, a) == At(sub.0, sub.1)
  {
    var e := TokenEnd(path);
    var token := StaticToken(path, inStaticToken);
    assert (token[0] != '/') == (path[0] != '/');
    var k := IndexOf(n.staticIndices, token[0]);
    var (n3, j, consumed) := Descend(n, k, token);
    sub := StaticExistingLeaf(n, path, wildcards, inStaticToken);
    child := n3.staticChild[j];
    skip := PatternSkip(path, inStaticToken, consumed);
  }

  lemma UnfoldNew<H>(n: Node<H>, path: string, wildcards: seq<string>, inStaticToken: bool)
    returns (child: Node<H>, skip: nat, sub: (Node<H>, Addr))
    requires WellFormed(n) && |path| > 0
    requires AddStatic(n, path, wildcards, inStaticToken).Ok?
    requires var e := TokenEnd(path);
      var token := StaticToken(path, inStaticToken);
      IndexOf(n.staticIndices, token[0]) == |n.staticIndices|
    ensures 1 <= skip <= TokenEnd(path) && WellFormed(child)
    ensures AddPath(child, path[skip..], wildcards, path[0] != '/') == Ok(sub)
    ensures var (t, a) := AddStatic(n, path, wildcards, inStaticToken).value;
      At(t, a) == At(sub.0, sub.1)
  {
    var e := TokenEnd(path);
    var token := StaticToken(path, inStaticToken);
    assert (token[0] != '/') == (path[0] != '/');
    sub := StaticNewLeaf(n, path, wildcards, inStaticToken);
    child := NewNode<H>(token);
    skip := e;
  }

  /** Through an existing static child, the leaf addStatic returns is the leaf the
      recursive insertion into that child returns. */
  lemma StaticExistingLeaf<H>(n: Node<H>, path: string, wildcards: seq<string>, inStaticToken: bool)
    returns (sub: (Node<H>, Addr))
    requires WellFormed(n) && |path| > 0
    requires AddStatic(n, path, wildcards, inStaticToken).Ok?
    requires var e := TokenEnd(path);
      var token := StaticToken(path, inStaticToken);
      IndexOf(n.staticIndices, token[0]) < |n.staticIndices|
    ensures var e := TokenEnd(path);
      var token := StaticToken(path, inStaticToken);
      var k := IndexOf(n.staticIndices, token[0]);
      var (n3, j, consumed) := Descend(n, k, token);
      var skip := PatternSkip(path, inStaticToken, consumed);
      && WellFormed(n3) && j < |n3.staticChild|
      && AddPath(n3.staticChild[j], path[skip..], wildcards, token[0] != '/') == Ok(sub)
      && var (t, a) := AddStatic(n, path, wildcards, inStaticToken).value;
      && t == n3.(staticChild := n3.staticChild[j := sub.0])
      && a == [Static(j)] + sub.1
      && At(t, a) == At(sub.0, sub.1)
  {
    var e := TokenEnd(path);
    var token := StaticToken(path, inStaticToken);
    var k := IndexOf(n.staticIndices, token[0]);
    var (n3, j, consumed) := Descend(n, k, token);
    DescendKeepsWellFormed(n, k, token);
    var skip := PatternSkip(path, inStaticToken, consumed);
    sub := AddPath(n3.staticChild[j], path[skip..], wildcards, token[0] != '/').value;
    AtCons(n3.(staticChild := n3.staticChild[j := sub.0]), Static(j), sub.1);
  }

  /** Without a static child for the token's first byte, the leaf addStatic returns is
      the leaf the insertion into the new child returns. */
  lemma StaticNewLeaf<H>(n: Node<H>, path: string, wildcards: seq<string>, inStaticToken: bool)
    returns (sub: (Node<H>, Addr))
    requires WellFormed(n) && |path| > 0
    requires AddStatic(n, path, wildcards, inStaticToken).Ok?
    requires var e := TokenEnd(path);
      var token := StaticToken(path, inStaticToken);
      IndexOf(n.staticIndices, token[0]) == |n.staticIndices|
    ensures var e := TokenEnd(path);
      var token := StaticToken(path, inStaticToken);
      && AddPath(NewNode<H>(token), path[e..], wildcards, token[0] != '/') == Ok(sub)
      && var (t, a) := AddStatic(n, path, wildcards, inStaticToken).value;
      && t == n.(staticIndices := n.staticIndices + [token[0]], staticChild := n.staticChild + [sub.0])
      && a == [Static(|n.staticChild|)] + sub.1
      && At(t, a) == At(sub.0, sub.1)
  {
    var e := TokenEnd(path);
    var token := StaticToken(path, inStaticToken);
    sub := AddPath(NewNode<H>(token), path[e..], wildcards, token[0] != '/').value;
    var n' := n.(staticIndices := n.staticIndices + [token[0]], staticChild := n.staticChild + [sub.0]);
    AtCons(n', Static(|n.staticChild|), sub.1);
  }

  // ---------------------------------------------------------------------------
  // Literal patterns take the static walk

  lemma {:induction false} IndexOfAppended(xs: seq<char>, c: char)
    requires IndexOf(xs, c) == |xs|
    ensures IndexOf(xs + [c], c) == |xs|
    decreases |xs|
  {
    if |xs| > 0 {
      assert (xs + [c])[1..] == xs[1..] + [c];
      IndexOfAppended(xs[1..], c);
    }
  }

  /** One static step of a literal insertion: the new tree's child for the pattern's
      first byte is the subtree the recursive insertion built, labelled with a prefix
      of the pattern, and the leaf's address continues through it. */
  lemma LiteralStep<H>(n: Node<H>, path: string, wildcards: seq<string>, inStaticToken: bool, t: Node<H>, a: Addr)
    returns (j: nat, skip: nat, child: Node<H>, sub: (Node<H>, Addr))
    requires WellFormed(n) && Literal(path) && |path| > 0
    requires AddPath(n, path, wildcards, inStaticToken) == Ok((t, a))
    ensures 1 <= skip <= |path| && j < |t.staticChild| && j < |t.staticIndices|
      && IndexOf(t.staticIndices, path[0]) == j
      && t.staticChild[j] == sub.0 && sub.0.path == path[..skip]
      && a == [Static(j)] + sub.1
      && WellFormed(child) && AddPath(child, path[skip..], wildcards, path[0] != '/') == Ok(sub)
  {
    assert AddPath(n, path, wildcards, inStaticToken) == AddStatic(n, path, wildcards, inStaticToken);
    var e := TokenEnd(path);
    assert !IsEscaped(path[..e], inStaticToken);
    if IndexOf(n.staticIndices, path[0]) < |n.staticIndices| {
      j, skip, child, sub := LiteralStepExisting(n, path, wildcards, inStaticToken);
    } else {
      j, skip, child, sub := LiteralStepNew(n, path, wildcards, inStaticToken);
    }
  }

  /** The existing-child branch of addStatic with every intermediate value named: the
      token, Descend's node, position and consumed length, the pattern bytes used up,
      the child followed and the recursive insertion's result. */
  lemma ExistingStep<H>(n: Node<H>, path: string, wildcards: seq<string>, inStaticToken: bool)
    returns (token: string, n3: Node<H>, j: nat, consumed: nat, skip: nat, sub: (Node<H>, Addr))
    requires WellFormed(n) && |path| > 0
    requires AddStatic(n, path, wildcards, inStaticToken).Ok?
    requires IndexOf(n.staticIndices, StaticToken(path, inStaticToken)[0]) < |n.staticIndices|
    ensures token == StaticToken(path, inStaticToken)
    ensures (n3, j, consumed) == Descend(n, IndexOf(n.staticIndices, token[0]), token)
    ensures skip == PatternSkip(path, inStaticToken, consumed) && 1 <= consumed <= |token|
    ensures WellFormed(n3) && j < |n3.staticChild| == |n3.staticIndices|
    ensures AddPath(n3.staticChild[j], path[skip..], wildcards, path[0] != '/') == Ok(sub)
    ensures AddStatic(n, path, wildcards, inStaticToken)
         == Ok((n3.(staticChild := n3.staticChild[j := sub.0]), [Static(j)] + sub.1))
  {
    token := StaticToken(path, inStaticToken);
    var k := IndexOf(n.staticIndices, token[0]);
    var r := Descend(n, k, token);
    n3, j, consumed := r.0, r.1, r.2;
    DescendKeepsWellFormed(n, k, token);
    skip := PatternSkip(path, inStaticToken, consumed);
    sub := AddPath(n3.staticChild[j], path[skip..], wildcards, token[0] != '/').value;
  }

  /** A static token is inserted through the static child indexed by its first
      byte; the wildcard and catch-all children are left alone. */
  lemma AddStaticShape<H>(n: Node<H>, path: string, wildcards: seq<string>, inStaticToken: bool)
    requires WellFormed(n) && |path| > 0
    ensures var r := AddStatic(n, path, wildcards, inStaticToken);
      r.Ok? ==>
        && r.value.0.wildcardChild == n.wildcardChild
        && r.value.0.catchAllChild == n.catchAllChild
        && |r.value.1| > 0 && r.value.1[0].Static?
        && r.value.1[0].k < |r.value.0.staticIndices|
        && r.value.0.staticIndices[r.value.1[0].k] == StaticToken(path, inStaticToken)[0]
  {
    if AddStatic(n, path, wildcards, inStaticToken).Ok? {
      var token := StaticToken(path, inStaticToken);
      var k := IndexOf(n.staticIndices, token[0]);
      if k < |n.staticIndices| {
        var _, n3, j, consumed, _, _ := ExistingStep(n, path, wildcards, inStaticToken);
        DescendFindsChild(n, k, token, n3, j, consumed);
      } else {
        var _ := StaticNewLeaf(n, path, wildcards, inStaticToken);
      }
    }
  }

  /** `\*`, `\:` and `\\` at the start of a token stand for the character itself:
      the pattern is inserted through a static child indexed by that character, and
      the wildcard and catch-all children are left alone. */
  lemma EscapeIsLiteral<H>(n: Node<H>, c: char, rest: string, wildcards: seq<string>)
    requires WellFormed(n) && c in "*:\\"
    ensures var r := AddPath(n, ['\\', c] + rest, wildcards, false);
      r.Ok? ==>
        && r.value.0.wildcardChild == n.wildcardChild
        && r.value.0.catchAllChild == n.catchAllChild
        && |r.value.1| > 0 && r.value.1[0].Static?
        && r.value.1[0].k < |r.value.0.staticIndices|
        && r.value.0.staticIndices[r.value.1[0].k] == c
  {
    var path := ['\\', c] + rest;
    assert AddPath(n, path, wildcards, false) == AddStatic(n, path, wildcards, false);
    assert IsEscaped(path[..TokenEnd(path)], false);
    assert StaticToken(path, false)[0] == c;
    AddStaticShape(n, path, wildcards, false);
  }

  lemma LiteralStepExisting<H>(n: Node<H>, path: string, wildcards: seq<string>, inStaticToken: bool)
    returns (j: nat, skip: nat, child: Node<H>, sub: (Node<H>, Addr))
    requires WellFormed(n) && |path| > 0 && !IsEscaped(path[..TokenEnd(path)], inStaticToken)
    requires AddStatic(n, path, wildcards, inStaticToken).Ok?
    requires IndexOf(n.staticIndices, path[0]) < |n.staticIndices|
    ensures var (t, a) := AddStatic(n, path, wildcards, inStaticToken).value;
      && 1 <= skip <= |path| && j < |t.staticChild| && j < |t.staticIndices|
      && IndexOf(t.staticIndices, path[0]) == j
      && t.staticChild[j] == sub.0 && sub.0.path == path[..skip]
      && a == [Static(j)] + sub.1
      && WellFormed(child) && AddPath(child, path[skip..], wildcards, path[0] != '/') == Ok(sub)
  {
    var token, n3, j', consumed, skip', sub' := ExistingStep(n, path, wildcards, inStaticToken);
    DescendLiteral(n, path, inStaticToken, n3, j', consumed);
    j, skip, sub := j', skip', sub';
    child := n3.staticChild[j];
  }

  /** Descend on a literal token: the child it leads to sits at the index of the
      pattern's first byte and is labelled with the first `consumed` pattern bytes. */
  lemma DescendLiteral<H>(n: Node<H>, path: string, inStaticToken: bool, n3: Node<H>, j: nat, consumed: nat)
    requires WellFormed(n) && |path| > 0 && !IsEscaped(path[..TokenEnd(path)], inStaticToken)
    requires IndexOf(n.staticIndices, path[0]) < |n.staticIndices|
    requires var token := StaticToken(path, inStaticToken);
      (n3, j, consumed) == Descend(n, IndexOf(n.staticIndices, token[0]), token)
    ensures consumed <= |path| && PatternSkip(path, inStaticToken, consumed) == consumed
    ensures j < |n3.staticChild| == |n3.staticIndices| && IndexOf(n3.staticIndices, path[0]) == j
    ensures n3.staticChild[j].path == path[..consumed]
  {
    var token := path[..TokenEnd(path)];
    var k := IndexOf(n.staticIndices, path[0]);
    assert StaticToken(path, inStaticToken) == token && PatternSkip(path, inStaticToken, consumed) == consumed by {
      LiteralToken(path, inStaticToken, consumed);
    }
    assert (n3, j, consumed) == Descend(n, k, token);
    DescendFindsChild(n, k, token, n3, j, consumed);
    assert token[..consumed] == path[..consumed];
  }

  lemma LiteralStepNew<H>(n: Node<H>, path: string, wildcards: seq<string>, inStaticToken: bool)
    returns (j: nat, skip: nat, child: Node<H>, sub: (Node<H>, Addr))
    requires WellFormed(n) && |path| > 0 && !IsEscaped(path[..TokenEnd(path)], inStaticToken)
    requires AddStatic(n, path, wildcards, inStaticToken).Ok?
    requires IndexOf(n.staticIndices, path[0]) == |n.staticIndices|
    ensures var (t, a) := AddStatic(n, path, wildcards, inStaticToken).value;
      && 1 <= skip <= |path| && j < |t.staticChild| && j < |t.staticIndices|
      && IndexOf(t.staticIndices, path[0]) == j
      && t.staticChild[j] == sub.0 && sub.0.path == path[..skip]
      && a == [Static(j)] + sub.1
      && WellFormed(child) && AddPath(child, path[skip..], wildcards, path[0] != '/') == Ok(sub)
  {
    var e := TokenEnd(path);
    sub := StaticNewLeaf(n, path, wildcards, inStaticToken);
    j, skip := |n.staticChild|, e;
    IndexOfAppended(n.staticIndices, path[0]);
    child := NewNode<H>(path[..e]);
    assert WellFormed(child);
  }

  /** The leaf addPath returns for a literal pattern is exactly where the static walk
      of that pattern ends in the new tree. */
  lemma {:induction false} LiteralLeafOnStaticWalk<H>(n: Node<H>, path: string, wildcards: seq<string>, inStaticToken: bool,
                                                     t: Node<H>, a: Addr)
    requires WellFormed(n) && Literal(path)
    requires AddPath(n, path, wildcards, inStaticToken) == Ok((t, a))
    ensures StaticAddr(t, path) == Some(a)
    decreases |path|
  {
    if |path| > 0 {
      var j, skip, child, sub := LiteralStep(n, path, wildcards, inStaticToken, t, a);
      assert Literal(path[skip..]);
      LiteralLeafOnStaticWalk(child, path[skip..], wildcards, path[0] != '/', sub.0, sub.1);
      StaticAddrStep(t, path, j, skip, sub.1);
    }
  }

  // ---------------------------------------------------------------------------
  // From the static walk to search

  /** Search answers a path whose static walk ends at a node with a handler for the
      verb with that node and that handler, and no parameters. */
  lemma {:induction false} StaticWalkMatches<H>(n: Node<H>, verb: string, p: string, a: Addr)
    requires StaticAddr(n, p) == Some(a) && At(n, a).Some?
    requires var leaf := At(n, a).value; leaf.handlers.Some? && Get(leaf.handlers.value, verb).Some?
    ensures var leaf := At(n, a).value;
      Search(n, verb, p) == Matched(leaf, Get(leaf.handlers.value, verb), [])
    decreases |p|, n
  {
    if |p| > 0 {
      var k := IndexOf(n.staticIndices, p[0]);
      var child := n.staticChild[k];
      var rest := p[|child.path|..];
      var a' := StaticAddr(child, rest).value;
      AtCons(n, Static(k), a');
      StaticWalkMatches(child, verb, rest, a');
    }
  }

  /** Updating a node's data in place leaves every static walk as it was. */
  lemma {:induction false} ReplaceKeepsStaticWalk<H>(t: Node<H>, a: Addr, m: Node<H>, p: string)
    requires At(t, a).Some? && SameShape(At(t, a).value, m)
    ensures StaticAddr(Replace(t, a, m), p) == StaticAddr(t, p)
    decreases |p|, t
  {
    var r := Replace(t, a, m);
    if |p| == 0 || |a| == 0 {
      if |a| == 0 && |p| > 0 {
        assert r.staticChild == t.staticChild && r.staticIndices == t.staticIndices;
      }
      return;
    }
    assert r.staticIndices == t.staticIndices && |r.staticChild| == |t.staticChild|;
    var k := IndexOf(t.staticIndices, p[0]);
    if k < |t.staticIndices| && k < |t.staticChild| {
      var child := t.staticChild[k];
      if a[0] == Static(k) {
        ReplacePathKept(child, a[1..], m);
        if child.path <= p {
          ReplaceKeepsStaticWalk(child, a[1..], m, p[|child.path|..]);
        }
      } else {
        assert r.staticChild[k] == child;
      }
    }
  }

  lemma ReplacePathKept<H>(t: Node<H>, a: Addr, m: Node<H>)
    requires At(t, a).Some? && SameShape(At(t, a).value, m)
    ensures Replace(t, a, m).path == t.path
  {
  }

  // ---------------------------------------------------------------------------
  // Registration round trip

  /** Where Handle puts a literal route: at the end of the static walk of the stored
      pattern (everything after its leading '/'), on a node recording the pattern as
      its route whose table now holds the wrapped handler for the verb, which can no
      longer be written again. */
  lemma HandleLeaf<H>(root: Node<H>, cfg: MuxConfig, g: RouteGroup<H>, verb: string, path: string, handler: H)
    returns (a: Addr, leaf: Node<H>)
    requires WellFormed(root) && Literal(g.path + path)
    requires Handle(root, cfg, g, verb, path, handler).Ok?
    ensures var full := TrimTrailingSlash(g.path + path, cfg.redirectTrailingSlash).0;
      var t := Handle(root, cfg, g, verb, path, handler).value;
      && |full| > 0 && Literal(full[1..])
      && StaticAddr(t, full[1..]) == Some(a) && At(t, a) == Some(leaf)
      && leaf.route == full && leaf.handlers.Some?
      && Get(leaf.handlers.value, verb) == Some(Nest(g.stack, handler))
      && !MayWrite(leaf.handlers.value, verb)
  {
    var (p, addSlash) := TrimTrailingSlash(g.path + path, cfg.redirectTrailingSlash);
    var h := Nest(g.stack, handler);
    assert Handle(root, cfg, g, verb, path, handler) == AddOne(root, p, verb, h, addSlash, cfg.headCanUseGet);
    var (t, a') := AddPath(root, p[1..], [], false).value;
    a := a';
    leaf := UpdateLeaf(At(t, a).value, p, verb, h, addSlash, cfg.headCanUseGet).value;
    var t' := Replace(t, a, leaf);
    assert AddOne(root, p, verb, h, addSlash, cfg.headCanUseGet) == Ok(t');
    assert Literal(p[1..]) by {
      assert forall i :: 0 <= i < |p[1..]| ==> p[1..][i] == (g.path + path)[i + 1];
    }
    LiteralLeafOnStaticWalk(root, p[1..], [], false, t, a);
    ReplaceKeepsWellFormed(t, a, leaf);
    ReplaceKeepsStaticWalk(t, a, leaf, p[1..]);
  }

  /** Registering a literal route and then matching it: Handle followed by a search
      for the stored pattern finds a node with that route, the handler wrapped in the
      group's middleware for the verb, and no parameters. */
  lemma HandleThenMatch<H>(root: Node<H>, cfg: MuxConfig, g: RouteGroup<H>, verb: string, path: string, handler: H)
    requires WellFormed(root) && Literal(g.path + path)
    requires Handle(root, cfg, g, verb, path, handler).Ok?
    ensures var full := TrimTrailingSlash(g.path + path, cfg.redirectTrailingSlash).0;
      var r := Search(Handle(root, cfg, g, verb, path, handler).value, verb, full[1..]);
      && r.Matched? && r.node.route == full
      && r.handler == Some(Nest(g.stack, handler)) && r.params == []
  {
    var full := TrimTrailingSlash(g.path + path, cfg.redirectTrailingSlash).0;
    var a, leaf := HandleLeaf(root, cfg, g, verb, path, handler);
    StaticWalkMatches(Handle(root, cfg, g, verb, path, handler).value, verb, full[1..], a);
  }

  // ---------------------------------------------------------------------------
  // Insertion keeps every static route

  /** What the static walk of `q` finds: the handler table and route of the node it
      ends at, or None when the walk fails. */
  ghost function Found<H>(n: Node<H>, q: string): Option<(Option<HandlerMap<H>>, string)>
    decreases |q|, n
  {
    if |q| == 0 then Some((n.handlers, n.route))
    else
      var k := IndexOf(n.staticIndices, q[0]);
      if k < |n.staticIndices| && k < |n.staticChild| && n.staticChild[k].path <= q then
        Found(n.staticChild[k], q[|n.staticChild[k].path|..])
      else None
  }

  /** `Found` reads the node at the end of the static walk. */
  lemma {:induction false} FoundAtStaticWalk<H>(n: Node<H>, q: string)
    ensures Found(n, q).Some? <==> StaticAddr(n, q).Some?
    ensures StaticAddr(n, q).Some? ==> At(n, StaticAddr(n, q).value).Some?
    ensures StaticAddr(n, q).Some? ==>
      var leaf := At(n, StaticAddr(n, q).value).value;
      Found(n, q) == Some((leaf.handlers, leaf.route))
    decreases |q|, n
  {
    if |q| > 0 {
      var k := IndexOf(n.staticIndices, q[0]);
      if k < |n.staticIndices| && k < |n.staticChild| && n.staticChild[k].path <= q {
        var child := n.staticChild[k];
        var rest := q[|child.path|..];
        FoundAtStaticWalk(child, rest);
        if StaticAddr(child, rest).Some? {
          AtCons(n, Static(k), StaticAddr(child, rest).value);
        }
      }
    }
  }

  /** The walk depends only on the static arrays and, at its end, on the handlers and
      route: nothing else about the starting node matters. */
  lemma SameStaticFound<H>(a: Node<H>, b: Node<H>, q: string)
    requires a.staticIndices == b.staticIndices && a.staticChild == b.staticChild
    requires a.handlers == b.handlers && a.route == b.route
    ensures Found(a, q) == Found(b, q)
  {
  }

  /** Where the element at position y ends up once the element at i moves to j. */
  function MovedTarget(i: nat, j: nat, y: nat): nat {
    if y < j || y > i then y else if y == i then j else y + 1
  }

  lemma MovedTargetInverse(i: nat, j: nat, y: nat)
    requires j <= i
    ensures MovedFrom(i, j, MovedTarget(i, j, y)) == y
    ensures y != i ==> MovedTarget(i, j, y) != j
  {
  }

  lemma IndexOfAppendedOther(xs: seq<char>, c: char, d: char)
    requires IndexOf(xs, d) < |xs|
    ensures IndexOf(xs + [c], d) == IndexOf(xs, d)
  {
    var s := IndexOf(xs, d);
    assert (xs + [c])[s] == d;
  }

  /** Whatever the static walk of `q` found in `n`, it finds the same in `t`. */
  ghost predicate Kept<H>(n: Node<H>, t: Node<H>, q: string) {
    Found(n, q).Some? ==> Found(t, q) == Found(n, q)
  }

  /** Inserting a pattern never loses a static route: every path whose static walk
      reached a node before reaches one with the same handlers and route after. */
  lemma {:induction false} AddPathKeepsRoutes<H>(n: Node<H>, path: string, wildcards: seq<string>, inStaticToken: bool, q: string)
    requires WellFormed(n) && AddPath(n, path, wildcards, inStaticToken).Ok?
    ensures Kept(n, AddPath(n, path, wildcards, inStaticToken).value.0, q)
    decreases |path|, 3
  {
    var t := AddPath(n, path, wildcards, inStaticToken).value.0;
    if |path| == 0 || (path[0] == '*' && !inStaticToken) {
      SameStaticFound(n, t, q);
    } else if path[0] == ':' && !inStaticToken {
      var e := TokenEnd(path);
      var wc := n.wildcardChild.GetOr(NewNode("wildcard"));
      var sub := AddPath(wc, path[e..], wildcards + [path[1..e]], false).value;
      assert t == n.(wildcardChild := Some(sub.0));
      SameStaticFound(n, t, q);
    } else {
      StaticKeepsRoutes(n, path, wildcards, inStaticToken, q);
    }
  }

  lemma {:induction false} StaticKeepsRoutes<H>(n: Node<H>, path: string, wildcards: seq<string>, inStaticToken: bool, q: string)
    requires WellFormed(n) && |path| > 0 && AddStatic(n, path, wildcards, inStaticToken).Ok?
    ensures Kept(n, AddStatic(n, path, wildcards, inStaticToken).value.0, q)
    decreases |path|, 2
  {
    var e := TokenEnd(path);
    var token := StaticToken(path, inStaticToken);
    if IndexOf(n.staticIndices, token[0]) < |n.staticIndices| {
      ExistingKeepsRoutes(n, path, wildcards, inStaticToken, q);
    } else {
      NewKeepsRoutes(n, path, wildcards, inStaticToken, q);
    }
  }

  /** Appending a child for a new leading byte leaves every other walk alone. */
  lemma NewKeepsRoutes<H>(n: Node<H>, path: string, wildcards: seq<string>, inStaticToken: bool, q: string)
    requires WellFormed(n) && |path| > 0 && AddStatic(n, path, wildcards, inStaticToken).Ok?
    requires var e := TokenEnd(path);
      var token := StaticToken(path, inStaticToken);
      IndexOf(n.staticIndices, token[0]) == |n.staticIndices|
    ensures Kept(n, AddStatic(n, path, wildcards, inStaticToken).value.0, q)
  {
    var e := TokenEnd(path);
    var token := StaticToken(path, inStaticToken);
    var sub := StaticNewLeaf(n, path, wildcards, inStaticToken);
    var t := AddStatic(n, path, wildcards, inStaticToken).value.0;
    if |q| > 0 && Found(n, q).Some? {
      var k0 := IndexOf(n.staticIndices, q[0]);
      IndexOfAppendedOther(n.staticIndices, token[0], q[0]);
      assert t.staticChild[k0] == n.staticChild[k0];
    }
  }

  /** Through an existing child: the walks through the other children are untouched
      (they only move), and the walks through this child continue below it. */
  lemma {:induction false} ExistingKeepsRoutes<H>(n: Node<H>, path: string, wildcards: seq<string>, inStaticToken: bool, q: string)
    requires WellFormed(n) && |path| > 0 && AddStatic(n, path, wildcards, inStaticToken).Ok?
    requires var e := TokenEnd(path);
      var token := StaticToken(path, inStaticToken);
      IndexOf(n.staticIndices, token[0]) < |n.staticIndices|
    ensures Kept(n, AddStatic(n, path, wildcards, inStaticToken).value.0, q)
    decreases |path|, 1
  {
    if |q| == 0 || Found(n, q).None? {
      var sub := StaticExistingLeaf(n, path, wildcards, inStaticToken);
      return;
    }
    var e := TokenEnd(path);
    var token := StaticToken(path, inStaticToken);
    var k := IndexOf(n.staticIndices, token[0]);
    if IndexOf(n.staticIndices, q[0]) != k {
      ExistingOtherChild(n, path, wildcards, inStaticToken, q);
    } else {
      ExistingSameChild(n, path, wildcards, inStaticToken, q);
    }
  }

  /** A walk that leaves through the child the insertion descends into finds the same:
      the child only gained a prefix split and a deeper insertion, which keeps its
      routes by induction. */
  lemma {:induction false} ExistingSameChild<H>(n: Node<H>, path: string, wildcards: seq<string>, inStaticToken: bool, q: string)
    requires WellFormed(n) && |path| > 0 && AddStatic(n, path, wildcards, inStaticToken).Ok?
    requires var e := TokenEnd(path);
      var token := StaticToken(path, inStaticToken);
      && IndexOf(n.staticIndices, token[0]) < |n.staticIndices|
      && |q| > 0 && Found(n, q).Some?
      && IndexOf(n.staticIndices, q[0]) == IndexOf(n.staticIndices, token[0])
    ensures Found(AddStatic(n, path, wildcards, inStaticToken).value.0, q) == Found(n, q)
    decreases |path|, 0
  {
    var e := TokenEnd(path);
    var token := StaticToken(path, inStaticToken);
    var k := IndexOf(n.staticIndices, token[0]);
    var (n3, j, consumed) := Descend(n, k, token);
    var skip := PatternSkip(path, inStaticToken, consumed);
    var sub := SameChildStep(n, path, wildcards, inStaticToken, q);
    AddPathKeepsRoutes(n3.staticChild[j], path[skip..], wildcards, token[0] != '/', q[consumed..]);
  }

  /** A walk that leaves through another child finds the same: that child only moved. */
  lemma ExistingOtherChild<H>(n: Node<H>, path: string, wildcards: seq<string>, inStaticToken: bool, q: string)
    requires WellFormed(n) && |path| > 0 && AddStatic(n, path, wildcards, inStaticToken).Ok?
    requires var e := TokenEnd(path);
      var token := StaticToken(path, inStaticToken);
      && IndexOf(n.staticIndices, token[0]) < |n.staticIndices|
      && |q| > 0 && Found(n, q).Some?
      && IndexOf(n.staticIndices, q[0]) != IndexOf(n.staticIndices, token[0])
    ensures Found(AddStatic(n, path, wildcards, inStaticToken).value.0, q) == Found(n, q)
  {
    var e := TokenEnd(path);
    var token := StaticToken(path, inStaticToken);
    var k := IndexOf(n.staticIndices, token[0]);
    var (n3, j, consumed) := Descend(n, k, token);
    DescendKeepsWellFormed(n, k, token);
    DescendOthers(n, k, token);
    var sub := StaticExistingLeaf(n, path, wildcards, inStaticToken);
    MovedWalkFound(n, n3, k, j, sub.0, q);
  }

  /** The arithmetic of the step above, independent of how the tree was built. */
  lemma MovedWalkFound<H>(n: Node<H>, m: Node<H>, k: nat, j: nat, c: Node<H>, q: string)
    requires LocalInv(n) && LocalInv(m) && j <= k < |n.staticChild| && |m.staticChild| == |n.staticChild|
    requires MovedTo(n.staticIndices, m.staticIndices, k, j)
    requires forall x :: 0 <= x < |m.staticChild| && x != j ==> m.staticChild[x] == n.staticChild[MovedFrom(k, j, x)]
    requires |q| > 0 && Found(n, q).Some? && IndexOf(n.staticIndices, q[0]) != k
    ensures Found(m.(staticChild := m.staticChild[j := c]), q) == Found(n, q)
  {
    var t := m.(staticChild := m.staticChild[j := c]);
    var k0 := IndexOf(n.staticIndices, q[0]);
    var x := MovedTarget(k, j, k0);
    MovedTargetInverse(k, j, k0);
    MovedIndex(n.staticIndices, m.staticIndices, k, j);
    assert m.staticIndices[x] == q[0];
    IndexOfDistinct(m.staticIndices, x);
    assert t.staticChild[x] == n.staticChild[k0];
  }

  /** A walk that leaves through the child being extended: before, it continued in
      the old child after its label; after, it continues in the new child's subtree
      after the consumed part of the token, and the old child's walk is still there. */
  lemma SameChildStep<H>(n: Node<H>, path: string, wildcards: seq<string>, inStaticToken: bool, q: string)
    returns (sub: (Node<H>, Addr))
    requires WellFormed(n) && |path| > 0 && AddStatic(n, path, wildcards, inStaticToken).Ok?
    requires var e := TokenEnd(path);
      var token := StaticToken(path, inStaticToken);
      && IndexOf(n.staticIndices, token[0]) < |n.staticIndices|
      && |q| > 0 && Found(n, q).Some?
      && IndexOf(n.staticIndices, q[0]) == IndexOf(n.staticIndices, token[0])
    ensures var e := TokenEnd(path);
      var token := StaticToken(path, inStaticToken);
      var k := IndexOf(n.staticIndices, token[0]);
      var (n3, j, consumed) := Descend(n, k, token);
      var skip := PatternSkip(path, inStaticToken, consumed);
      && WellFormed(n3) && j < |n3.staticChild| && consumed <= |q|
      && AddPath(n3.staticChild[j], path[skip..], wildcards, token[0] != '/') == Ok(sub)
      && Found(n3.staticChild[j], q[consumed..]) == Found(n, q)
      && (Found(sub.0, q[consumed..]) == Found(n3.staticChild[j], q[consumed..]) ==>
            Found(AddStatic(n, path, wildcards, inStaticToken).value.0, q) == Found(n, q))
  {
    var e := TokenEnd(path);
    var token := StaticToken(path, inStaticToken);
    var k := IndexOf(n.staticIndices, token[0]);
    var (n3, j, consumed) := Descend(n, k, token);
    DescendKeepsWellFormed(n, k, token);
    DescendOthers(n, k, token);
    sub := StaticExistingLeaf(n, path, wildcards, inStaticToken);
    ExtendedChildFound(n, k, token, q);
    assert sub.0.path == q[..consumed];
    ExtendedWalkFound(n, n3, k, j, sub.0, q);
  }

  /** Before the insertion continues below it, the child Descend leads to already
      passes the walk on to where the old child took it. */
  lemma ExtendedChildFound<H>(n: Node<H>, k: nat, token: string, q: string)
    requires LocalInv(n) && k < |n.staticChild| && |token| > 0 && token[0] == n.staticIndices[k]
    requires |q| > 0 && Found(n, q).Some? && IndexOf(n.staticIndices, q[0]) == k
    ensures var (m, j, consumed) := Descend(n, k, token);
      && consumed <= |q| && m.staticChild[j].path == q[..consumed]
      && Found(m.staticChild[j], q[consumed..]) == Found(n, q)
  {
    var (m, j, consumed) := Descend(n, k, token);
    DescendOthers(n, k, token);
    var child := n.staticChild[k];
    assert child.path <= q;
    if child.path <= token {
      DescendIntoChild(n, k, token);
      SameStaticFound(m.staticChild[j], child, q[consumed..]);
    } else {
      DescendIntoSplit(n, k, token);
      SplitFound(child, m.staticChild[j], consumed, q);
    }
  }

  /** After it, the new tree's walk of `q` continues in the new subtree. */
  lemma ExtendedWalkFound<H>(n: Node<H>, m: Node<H>, k: nat, j: nat, c: Node<H>, q: string)
    requires LocalInv(m) && k < |n.staticIndices| && j < |m.staticChild|
    requires MovedTo(n.staticIndices, m.staticIndices, k, j)
    requires |q| > 0 && n.staticIndices[k] == q[0] && c.path <= q
    ensures Found(m.(staticChild := m.staticChild[j := c]), q) == Found(c, q[|c.path|..])
  {
    var t := m.(staticChild := m.staticChild[j := c]);
    MovedIndex(n.staticIndices, m.staticIndices, k, j);
    assert m.staticIndices[j] == q[0];
    IndexOfDistinct(m.staticIndices, j);
    assert IndexOf(t.staticIndices, q[0]) == j && t.staticChild[j] == c;
  }

  /** The intermediary a split inserts passes every walk on to the old child. */
  lemma SplitFound<H>(child: Node<H>, inter: Node<H>, i: nat, q: string)
    requires i < |child.path| && child.path <= q
    requires inter.staticIndices == [child.path[i]] && inter.staticChild == [child.(path := child.path[i..])]
    ensures Found(inter, q[i..]) == Found(child, q[|child.path|..])
  {
    var moved := child.(path := child.path[i..]);
    assert q[i..][0] == child.path[i];
    assert moved.path <= q[i..];
    assert q[i..][|moved.path|..] == q[|child.path|..];
    SameStaticFound(moved, child, q[|child.path|..]);
  }

  // ---------------------------------------------------------------------------
  // Duplicate registration

  /** Registering the same literal route for the same verb a second time fails,
      whatever the handler: the first registration left the verb taken at the node
      the second one reaches. */
  lemma SecondRegistrationFails<H>(root: Node<H>, cfg: MuxConfig, g: RouteGroup<H>, verb: string, path: string,
                                   h1: H, h2: H)
    requires WellFormed(root) && Literal(g.path + path)
    requires Handle(root, cfg, g, verb, path, h1).Ok?
    ensures Handle(Handle(root, cfg, g, verb, path, h1).value, cfg, g, verb, path, h2).Err?
  {
    var t1 := Handle(root, cfg, g, verb, path, h1).value;
    var a1, leaf1 := HandleLeaf(root, cfg, g, verb, path, h1);
    var (p, addSlash) := TrimTrailingSlash(g.path + path, cfg.redirectTrailingSlash);
    var h := Nest(g.stack, h2);
    assert Handle(t1, cfg, g, verb, path, h2) == AddOne(t1, p, verb, h, addSlash, cfg.headCanUseGet);
    var ins := AddPath(t1, p[1..], [], false);
    if ins.Ok? {
      var (t2, a2) := ins.value;
      LiteralLeafOnStaticWalk(t1, p[1..], [], false, t2, a2);
      FoundAtStaticWalk(t1, p[1..]);
      AddPathKeepsRoutes(t1, p[1..], [], false, p[1..]);
      FoundAtStaticWalk(t2, p[1..]);
      var leaf2 := At(t2, a2).value;
      assert leaf2.handlers == leaf1.handlers && leaf2.route == p;
      assert UpdateLeaf(leaf2, p, verb, h, addSlash, cfg.headCanUseGet).Err?;
    }
  }

  // ---------------------------------------------------------------------------
  // Registration keeps the other routes

  /** Updating the node at `a` changes what a static walk finds only for the walk
      that ends at `a`. */
  lemma {:induction false} ReplaceFound<H>(t: Node<H>, a: Addr, m: Node<H>, q: string)
    requires At(t, a).Some? && SameShape(At(t, a).value, m)
    ensures Found(Replace(t, a, m), q) ==
      if StaticAddr(t, q) == Some(a) then Some((m.handlers, m.route)) else Found(t, q)
    decreases |q|, t
  {
    var r := Replace(t, a, m);
    if |q| == 0 {
      return;
    }
    if |a| == 0 {
      assert r.staticIndices == t.staticIndices && r.staticChild == t.staticChild;
      return;
    }
    assert r.staticIndices == t.staticIndices && |r.staticChild| == |t.staticChild|;
    var k := IndexOf(t.staticIndices, q[0]);
    if k < |t.staticIndices| && k < |t.staticChild| {
      var child := t.staticChild[k];
      if a[0] == Static(k) {
        ReplacePathKept(child, a[1..], m);
        if child.path <= q {
          var rest := q[|child.path|..];
          ReplaceFound(child, a[1..], m, rest);
          assert StaticAddr(t, q) == Some(a) <==> StaticAddr(child, rest) == Some(a[1..]) by {
            if StaticAddr(child, rest).Some? {
              assert a == [Static(k)] + a[1..];
            }
          }
        }
      } else {
        assert r.staticChild[k] == child;
      }
    }
  }

  /** Registering a route leaves every route registered before in place: a path whose
      static walk reached a node with a route and a handler table still reaches a
      node with the same route, and every verb other than the one registered (and
      HEAD, which GET may derive) keeps its handler there. */
  lemma HandleKeepsRoutes<H>(root: Node<H>, cfg: MuxConfig, g: RouteGroup<H>, verb: string, path: string,
                             handler: H, q: string)
    requires WellFormed(root) && Handle(root, cfg, g, verb, path, handler).Ok?
    requires Found(root, q).Some? && Found(root, q).value.1 != "" && Found(root, q).value.0.Some?
    ensures var before := Found(root, q).value;
      var after := Found(Handle(root, cfg, g, verb, path, handler).value, q);
      && after.Some? && after.value.1 == before.1 && after.value.0.Some?
      && forall v :: v != verb && v != HEAD ==> Get(after.value.0.value, v) == Get(before.0.value, v)
  {
    var (p, addSlash) := TrimTrailingSlash(g.path + path, cfg.redirectTrailingSlash);
    var h := Nest(g.stack, handler);
    assert Handle(root, cfg, g, verb, path, handler) == AddOne(root, p, verb, h, addSlash, cfg.headCanUseGet);
    var (t, a) := AddPath(root, p[1..], [], false).value;
    var prior := At(t, a).value;
    var leaf := UpdateLeaf(prior, p, verb, h, addSlash, cfg.headCanUseGet).value;
    assert AddOne(root, p, verb, h, addSlash, cfg.headCanUseGet) == Ok(Replace(t, a, leaf));
    AddPathKeepsRoutes(root, p[1..], [], false, q);
    ReplaceFound(t, a, leaf, q);
    if StaticAddr(t, q) == Some(a) {
      FoundAtStaticWalk(t, q);
    }
  }
}

=== FILE: runes.dfy ===
/** splitCommonPrefix's scan as tree.go writes it. `for i = range childNode.path`
    ranges over a Go string, which visits the start of each UTF-8 rune rather than
    each byte, so only the first byte of every rune is compared. The model's
    `Tree.CommonScan` is the byte-by-byte scan the surrounding code relies on; this
    module keeps the rune-stepping loop beside it and exhibits where the two part. */
module RuneRange {
  import opened Wrappers
  import opened Tree

  predicate InByteRange(c: char, lo: int, hi: int) {
    lo <= c as int <= hi
  }

  /** The number of bytes Go's range decodes at position i (utf8.DecodeRuneInString):
      1 for an ASCII byte or an invalid or truncated sequence, otherwise the length of
      the valid 2-, 3- or 4-byte encoding, with the narrowed second-byte ranges that
      exclude overlong forms, surrogates and code points above U+10FFFF. */
  function RuneWidth(s: string, i: nat): (w: nat)
    requires i < |s|
    ensures 1 <= w <= 4 && i + w <= |s|
    ensures s[i] as int < 0x80 ==> w == 1
    ensures w > 1 ==> forall j :: i < j < i + w ==> InByteRange(s[j], 0x80, 0xBF)
  {
    var b := s[i] as int;
    if b < 0x80 then 1
    else if 0xC2 <= b <= 0xDF then
      if i + 1 < |s| && InByteRange(s[i + 1], 0x80, 0xBF) then 2 else 1
    else if 0xE0 <= b <= 0xEF then
      var lo := if b == 0xE0 then 0xA0 else 0x80;
      var hi := if b == 0xED then 0x9F else 0xBF;
      if i + 2 < |s| && InByteRange(s[i + 1], lo, hi) && InByteRange(s[i + 2], 0x80, 0xBF) then 3 else 1
    else if 0xF0 <= b <= 0xF4 then
      var lo := if b == 0xF0 then 0x90 else 0x80;
      var hi := if b == 0xF4 then 0x8F else 0xBF;
      if i + 3 < |s| && InByteRange(s[i + 1], lo, hi) && InByteRange(s[i + 2], 0x80, 0xBF)
         && InByteRange(s[i + 3], 0x80, 0xBF) then 4 else 1
    else 1
  }

  /** The loop of tree.go:283-290 from rune start i: stop when i reaches the end of
      the token or the bytes at i differ; otherwise move to the next rune start, and
      end on the last rune start when the label runs out. None stands for the index
      panic Go raises when a rune step jumps past the end of the token. */
  function RuneScan(childPath: string, token: string, i: nat): (r: Option<nat>)
    requires i < |childPath|
    ensures r.Some? ==> i <= r.value < |childPath| && r.value <= |token|
    ensures r == Some(i) <== i == |token| || (i < |token| && token[i] != childPath[i])
    decreases |childPath| - i
  {
    if i > |token| then None
    else if i == |token| || token[i] != childPath[i] then Some(i)
    else if i + RuneWidth(childPath, i) == |childPath| then Some(i)
    else RuneScan(childPath, token, i + RuneWidth(childPath, i))
  }

  /** On an all-ASCII label every rune is one byte, so the loop as written and the
      byte scan agree. */
  lemma {:induction false} RuneScanAsciiAgrees(childPath: string, token: string, i: nat)
    requires i < |childPath| && i <= |token| && childPath[..i] == token[..i]
    requires forall j :: 0 <= j < |childPath| ==> childPath[j] as int < 0x80
    ensures RuneScan(childPath, token, i) == Some(CommonScan(childPath, token, i))
    decreases |childPath| - i
  {
    if i < |token| && token[i] == childPath[i] && i + 1 < |childPath| {
      assert RuneWidth(childPath, i) == 1;
      assert childPath[..i + 1] == token[..i + 1];
      RuneScanAsciiAgrees(childPath, token, i + 1);
    }
  }

  /** `node.splitCommonPrefix(k, token)` as written: the intermediary is labelled
      with the token up to where the rune-stepping scan stopped, and the old child
      keeps the rest of its own label. None is the index panic. */
  function SplitAsWritten<H>(n: Node<H>, k: nat, token: string): (r: Option<(Node<H>, nat)>)
    requires k < |n.staticChild|
    ensures var child := n.staticChild[k];
      child.path <= token ==> r == Some((n, |child.path|))
    ensures var child := n.staticChild[k];
      r.Some? && !(child.path <= token) ==>
        && r.value.1 < |child.path| && r.value.1 <= |token|
        && r.value.0 == n.(staticChild := r.value.0.staticChild)
        && |r.value.0.staticChild| == |n.staticChild|
        && r.value.0.staticChild[k].path == token[..r.value.1]
        && r.value.0.staticChild[k].staticChild == [child.(path := child.path[r.value.1..])]
  {
    var child := n.staticChild[k];
    if child.path <= token then Some((n, |child.path|))
    else
      match RuneScan(child.path, token, 0)
      case None => None
      case Some(i) =>
        var moved := child.(path := child.path[i..]);
        var inter := NewNode(token[..i]).(
          priority := child.priority, staticIndices := [moved.path[0]], staticChild := [moved]);
        Some((n.(staticChild := n.staticChild[k := inter]), i))
  }

  /** Three labels on which the loop as written and the byte scan part:
      - "über" against "änderung" (ü is C3 BC, ä is C3 A4): the byte scan stops at
        1, the loop skips the second byte of the rune and stops at 2;
      - "é" against "ê" (C3 A9, C3 AA): the byte scan stops at 1, the loop at 0;
      - "éx" against the one byte C3: the loop steps to 2, past the token's end,
        and Go's indexing panics. */
  lemma RuneScanCounterexamples()
    ensures RuneScan(['\U{C3}', '\U{BC}', 'b', 'e', 'r'], ['\U{C3}', '\U{A4}', 'n', 'd'], 0) == Some(2)
    ensures CommonScan(['\U{C3}', '\U{BC}', 'b', 'e', 'r'], ['\U{C3}', '\U{A4}', 'n', 'd'], 0) == 1
    ensures RuneScan(['\U{C3}', '\U{A9}'], ['\U{C3}', '\U{AA}'], 0) == Some(0)
    ensures CommonScan(['\U{C3}', '\U{A9}'], ['\U{C3}', '\U{AA}'], 0) == 1
    ensures RuneScan(['\U{C3}', '\U{A9}', 'x'], ['\U{C3}'], 0).None?
  {
    var ueber := ['\U{C3}', '\U{BC}', 'b', 'e', 'r'];
    var aend := ['\U{C3}', '\U{A4}', 'n', 'd'];
    assert RuneWidth(ueber, 0) == 2;
    assert RuneScan(ueber, aend, 2) == Some(2);
    assert CommonScan(ueber, aend, 1) == 1;
    assert RuneWidth(['\U{C3}', '\U{A9}'], 0) == 2;
    assert CommonScan(['\U{C3}', '\U{A9}'], ['\U{C3}', '\U{AA}'], 1) == 1;
    assert RuneWidth(['\U{C3}', '\U{A9}', 'x'], 0) == 2;
  }

  /** Inserting "änderung" beside "über" as written loses the "über" route: the
      intermediary is labelled "ä" and the old child "ber", so the labels on the way
      to the old node now spell "äber". The byte-scan split keeps them spelling the
      old label (Tree.SplitCommonPrefix). */
  lemma SplitAsWrittenLosesRoute<H>(n: Node<H>)
    requires |n.staticChild| == 1 && n.staticChild[0].path == ['\U{C3}', '\U{BC}', 'b', 'e', 'r']
    ensures var r := SplitAsWritten(n, 0, ['\U{C3}', '\U{A4}', 'n', 'd']);
      && r.Some? && r.value.1 == 2
      && var inter := r.value.0.staticChild[0];
      && inter.path == ['\U{C3}', '\U{A4}']
      && inter.staticChild[0].path == ['b', 'e', 'r']
      && inter.path + inter.staticChild[0].path != n.staticChild[0].path
  {
    RuneScanCounterexamples();
    var token := ['\U{C3}', '\U{A4}', 'n', 'd'];
    assert !(n.staticChild[0].path <= token) by { assert n.staticChild[0].path[1] != token[1]; }
    var r := SplitAsWritten(n, 0, token);
    var inter := r.value.0.staticChild[0];
    assert inter.path + inter.staticChild[0].path != n.staticChild[0].path by {
      assert (inter.path + inter.staticChild[0].path)[1] != n.staticChild[0].path[1];
    }
  }

  /** Inserting "ê" beside "é" as written consumes nothing: the intermediary gets an
      empty label and holds the old child unchanged under the same index byte, so the
      recursive addPath of tree.go:252 meets the same child with the same path again
      and never returns. The byte-scan split consumes one byte (Tree.SplitCommonPrefix). */
  lemma SplitAsWrittenMakesNoProgress<H>(n: Node<H>, k: nat)
    requires k < |n.staticChild| && n.staticChild[k].path == ['\U{C3}', '\U{A9}']
    ensures var r := SplitAsWritten(n, k, ['\U{C3}', '\U{AA}']);
      && r.Some? && r.value.1 == 0
      && var inter := r.value.0.staticChild[k];
      && inter.path == []
      && inter.staticIndices == [n.staticChild[k].path[0]]
      && inter.staticChild == [n.staticChild[k]]
  {
    RuneScanCounterexamples();
    var token := ['\U{C3}', '\U{AA}'];
    assert !(n.staticChild[k].path <= token) by { assert n.staticChild[k].path[1] != token[1]; }
    assert n.staticChild[k].path[0..] == n.staticChild[k].path;
  }
}

=== FILE: search.dfy ===
/** `node.search` of tree.go: the matcher. At each level it tries the static child
    with the path's leading byte, then the wildcard child on the next segment, then
    the catch-all on the whole rest, remembering a node that exists without a
    handler for the verb so the caller can tell "method not allowed" from "not
    found". */
module Matching {
  import opened Wrappers
  import opened HandlerTable
  import opened Tree
  import opened PercentEncoding
  import Params

  /** The outcome of a search. `Matched` with `handler == None` is a node that exists
      but has no handler for the verb. `Fault` stands for the runtime panics of the
      Go code: a parameter name index out of range, a catch-all child without a
      handler table (a nil dereference), or an index byte with no static child
      beside it (a slice index out of range). */
  datatype Match<H> =
    | NoMatch
    | Matched(node: Node<H>, handler: Option<H>, params: seq<Params.Param>)
    | Fault

  predicate HasHandler<H>(m: Match<H>) {
    m.Matched? && m.handler.Some?
  }

  /** A reported node has a handler table, the handler is that table's entry for the
      verb, and there are no more parameters than the node has names. */
  ghost predicate Reported<H>(m: Match<H>, verb: string) {
    m.Matched? ==>
      && m.node.handlers.Some? && m.handler == Get(m.node.handlers.value, verb)
      && |m.params| <= |m.node.leafWildcardNames|
  }

  /** The static tier: the first static child whose index byte is the path's first
      byte, if its label is a prefix of the path; NoMatch otherwise. */
  function SearchStatic<H>(n: Node<H>, verb: string, path: string): (r: Match<H>)
    requires |path| > 0
    ensures Reported(r, verb)
    decreases |path|, n, 0
  {
    var k := IndexOf(n.staticIndices, path[0]);
    if k == |n.staticIndices| then NoMatch
    else if k >= |n.staticChild| then Fault
    else
      var child := n.staticChild[k];
      if |path| >= |child.path| && child.path == path[..|child.path|] then
        Search(child, verb, path[|child.path|..])
      else NoMatch
  }

  /** `node.search(verb, path)`. */
  function Search<H>(n: Node<H>, verb: string, path: string): (r: Match<H>)
    ensures Reported(r, verb)
    ensures |path| == 0 ==> r.Fault? == false && (r.Matched? <==> n.handlers.Some?)
    decreases |path|, n, 1
  {
    if |path| == 0 then
      if n.handlers.None? then NoMatch else Matched(n, Get(n.handlers.value, verb), [])
    else
      var st := SearchStatic(n, verb, path);
      if st.Fault? || HasHandler(st) then st
      else
        var wc := SearchWildcard(n, verb, path, st);
        if wc.Fault? || HasHandler(wc) then wc
        else SearchCatchAll(n, verb, path, wc)
  }

  /** The wildcard tier, given what the static tier found (`found`, never with a
      handler). The candidate segment runs to the next '/'; an empty one never
      matches. The wildcard's own value is appended after the deeper ones, named by
      its position counted from the innermost end of the leaf's names. */
  function SearchWildcard<H>(n: Node<H>, verb: string, path: string, found: Match<H>): (r: Match<H>)
    requires |path| > 0
    ensures r == found || r.Fault? || (Reported(r, verb) && r.Matched? && |r.params| > 0)
    decreases |path|, n, 0
  {
    if n.wildcardChild.None? then found
    else
      var e := FirstSlash(path);
      if e == 0 then found
      else
        var sub := Search(n.wildcardChild.value, verb, path[e..]);
        if sub.Fault? then Fault
        else if sub.Matched? && (sub.handler.Some? || found.NoMatch?) then
          match ParamName(sub.node, |sub.params|)
          case None => Fault
          case Some(name) => Matched(sub.node, sub.handler, sub.params + [Params.Param(name, DecodeOrRaw(path[..e]))])
        else found
  }

  /** The catch-all tier, given the best node found so far (never with a handler):
      the catch-all wins when it has a handler for the verb or when nothing was
      found; its single parameter is the whole remaining path. */
  function SearchCatchAll<H>(n: Node<H>, verb: string, path: string, found: Match<H>): (r: Match<H>)
    ensures r == found || r.Fault? ||
      (r.Matched? && n.catchAllChild == Some(r.node) && Reported(r, verb) && |r.params| == 1)
  {
    match n.catchAllChild
    case None => found
    case Some(ca) =>
      if ca.handlers.None? then Fault
      else
        var h := Get(ca.handlers.value, verb);
        if h.Some? || found.NoMatch? then
          match ParamName(ca, 0)
          case None => Fault
          case Some(name) => Matched(ca, h, [Params.Param(name, DecodeOrRaw(path))])
        else found
  }

  /** Parameters are ordered innermost first: the k-th is named by the k-th name
      counted from the end of the matched leaf's wildcard names. */
  ghost predicate ParamsNamed<H>(leaf: Node<H>, ps: seq<Params.Param>) {
    && |ps| <= |leaf.leafWildcardNames|
    && forall k :: 0 <= k < |ps| ==>
         ps[k].name == leaf.leafWildcardNames[|leaf.leafWildcardNames| - 1 - k]
  }

  /** What a match promises: the node is in the tree below `n`, it has a handler
      table, the handler is that table's entry for the verb (None for "exists, but
      not for this verb"), and the parameters are named from the node's names. */
  ghost predicate SoundMatch<H>(n: Node<H>, verb: string, m: Match<H>, a: Addr) {
    m.Matched? ==>
      && At(n, a) == Some(m.node)
      && m.node.handlers.Some? && m.handler == Get(m.node.handlers.value, verb)
      && ParamsNamed(m.node, m.params)
  }

  /** Every match search reports is sound; `a` is the address of the matched node. */
  lemma {:induction false} SearchSound<H>(n: Node<H>, verb: string, path: string) returns (a: Addr)
    ensures SoundMatch(n, verb, Search(n, verb, path), a)
    decreases |path|, n, 1
  {
    if |path| == 0 {
      return [];
    }
    var st := SearchStatic(n, verb, path);
    a := StaticSound(n, verb, path);
    if st.Fault? || HasHandler(st) {
      return;
    }
    var wc := SearchWildcard(n, verb, path, st);
    a := WildcardSound(n, verb, path, st, a);
    if wc.Fault? || HasHandler(wc) {
      return;
    }
    a := CatchAllSound(n, verb, path, wc, a);
  }

  /** The static tier reports a sound match. */
  lemma {:induction false} StaticSound<H>(n: Node<H>, verb: string, path: string) returns (a: Addr)
    requires |path| > 0
    ensures SoundMatch(n, verb, SearchStatic(n, verb, path), a)
    decreases |path|, n, 0
  {
    a := [];
    if SearchStatic(n, verb, path).Matched? {
      var k := IndexOf(n.staticIndices, path[0]);
      var child := n.staticChild[k];
      var sub := SearchSound(child, verb, path[|child.path|..]);
      a := [Static(k)] + sub;
      AtCons(n, Static(k), sub);
    }
  }

  /** The wildcard tier keeps a sound match sound. */
  lemma {:induction false} WildcardSound<H>(n: Node<H>, verb: string, path: string, found: Match<H>, af: Addr)
    returns (a: Addr)
    requires |path| > 0 && SoundMatch(n, verb, found, af)
    ensures SoundMatch(n, verb, SearchWildcard(n, verb, path, found), a)
    decreases |path|, n, 0
  {
    a := af;
    var wc := SearchWildcard(n, verb, path, found);
    if wc.Matched? && wc != found {
      var e := FirstSlash(path);
      var w := n.wildcardChild.value;
      var sub := Search(w, verb, path[e..]);
      var asub := SearchSound(w, verb, path[e..]);
      a := [Wild] + asub;
      AtCons(n, Wild, asub);
      assert wc.node == sub.node && wc.params[..|sub.params|] == sub.params;
    }
  }

  /** The catch-all tier keeps a sound match sound. */
  lemma CatchAllSound<H>(n: Node<H>, verb: string, path: string, found: Match<H>, af: Addr) returns (a: Addr)
    requires SoundMatch(n, verb, found, af)
    ensures SoundMatch(n, verb, SearchCatchAll(n, verb, path, found), a)
  {
    a := af;
    if SearchCatchAll(n, verb, path, found) != found {
      a := [CatchAll];
      AtCons(n, CatchAll, []);
    }
  }

  /** An empty remaining path is answered by the node itself, with no parameters:
      nothing if it has no handler table, otherwise its entry for the verb. */
  lemma SearchAtEnd<H>(n: Node<H>, verb: string)
    ensures n.handlers.None? ==> Search(n, verb, []) == NoMatch
    ensures n.handlers.Some? ==> Search(n, verb, []) == Matched(n, Get(n.handlers.value, verb), [])
  {
  }

  /** Static routes dominate: once the static child's subtree yields a handler, no
      wildcard or catch-all child of this node can change the outcome. */
  lemma StaticDominates<H>(n: Node<H>, verb: string, path: string,
                           wc: Option<Node<H>>, ca: Option<Node<H>>)
    requires |path| > 0 && HasHandler(SearchStatic(n, verb, path))
    ensures Search(n.(wildcardChild := wc, catchAllChild := ca), verb, path) == SearchStatic(n, verb, path)
  {
    assert SearchStatic(n.(wildcardChild := wc, catchAllChild := ca), verb, path) == SearchStatic(n, verb, path);
  }

  /** A named wildcard dominates the catch-all: when the wildcard tier yields a
      handler, the catch-all child is never consulted. */
  lemma WildcardDominatesCatchAll<H>(n: Node<H>, verb: string, path: string, ca: Option<Node<H>>)
    requires |path| > 0
    requires HasHandler(SearchWildcard(n, verb, path, SearchStatic(n, verb, path)))
    ensures Search(n.(catchAllChild := ca), verb, path) == Search(n, verb, path)
  {
    var n' := n.(catchAllChild := ca);
    assert SearchStatic(n', verb, path) == SearchStatic(n, verb, path);
    assert SearchWildcard(n', verb, path, SearchStatic(n, verb, path))
        == SearchWildcard(n, verb, path, SearchStatic(n, verb, path));
  }

  /** A wildcard never matches an empty segment: at a '/' the wildcard child plays
      no part in the search. */
  lemma WildcardSkipsEmptySegment<H>(n: Node<H>, verb: string, path: string)
    requires |path| > 0 && path[0] == '/'
    ensures Search(n.(wildcardChild := None), verb, path) == Search(n, verb, path)
  {
    var n' := n.(wildcardChild := None);
    assert SearchStatic(n', verb, path) == SearchStatic(n, verb, path);
  }

  /** When neither the static nor the wildcard tier finds anything, a catch-all
      child with a handler table captures the whole remaining path, percent-decoded
      or raw, under its own (innermost) name, even without a handler for the verb. */
  lemma CatchAllCapturesRest<H>(n: Node<H>, verb: string, path: string)
    requires |path| > 0
    requires SearchStatic(n, verb, path).NoMatch?
    requires SearchWildcard(n, verb, path, NoMatch).NoMatch?
    requires n.catchAllChild.Some? && n.catchAllChild.value.handlers.Some?
    requires |n.catchAllChild.value.leafWildcardNames| > 0
    ensures var ca := n.catchAllChild.value;
      Search(n, verb, path) == Matched(ca, Get(ca.handlers.value, verb),
        [Params.Param(ca.leafWildcardNames[|ca.leafWildcardNames| - 1], DecodeOrRaw(path))])
  {
  }

  /** A catch-all without a handler for the verb never hides a node that the
      static or wildcard tier found: the search reports that node, so the caller
      can still answer "method not allowed". */
  lemma ExistingNodeBeatsIdleCatchAll<H>(n: Node<H>, verb: string, path: string, ca: Node<H>)
    requires |path| > 0
    requires ca.handlers.Some? && Get(ca.handlers.value, verb).None?
    requires Search(n.(catchAllChild := None), verb, path).Matched?
    ensures Search(n.(catchAllChild := Some(ca)), verb, path) == Search(n.(catchAllChild := None), verb, path)
  {
    var n0 := n.(catchAllChild := None);
    var n1 := n.(catchAllChild := Some(ca));
    assert SearchStatic(n1, verb, path) == SearchStatic(n0, verb, path);
    assert SearchWildcard(n1, verb, path, SearchStatic(n0, verb, path))
        == SearchWildcard(n0, verb, path, SearchStatic(n0, verb, path));
  }

  /** A `:name` wildcard captures exactly one segment: when the static tier found no
      handler and the wildcard child answers the rest after the next '/' with a
      handler, the search reports that node and handler, keeps the deeper
      parameters, and appends the segment itself, percent-decoded or raw, named by
      its position counted from the innermost end of the leaf's names (a Fault only
      where that name does not exist). */
  lemma WildcardCapturesSegment<H>(n: Node<H>, verb: string, path: string)
    requires |path| > 0 && FirstSlash(path) > 0 && n.wildcardChild.Some?
    requires var st := SearchStatic(n, verb, path); !st.Fault? && !HasHandler(st)
    requires HasHandler(Search(n.wildcardChild.value, verb, path[FirstSlash(path)..]))
    ensures var e := FirstSlash(path);
      var sub := Search(n.wildcardChild.value, verb, path[e..]);
      var r := Search(n, verb, path);
      && (forall i :: 0 <= i < e ==> path[i] != '/')
      && (r.Fault? <==> ParamName(sub.node, |sub.params|).None?)
      && (r.Matched? ==>
            && r.node == sub.node && r.handler == sub.handler
            && |r.params| == |sub.params| + 1 && r.params[..|sub.params|] == sub.params
            && r.params[|sub.params|] == Params.Param(ParamName(sub.node, |sub.params|).value, DecodeOrRaw(path[..e])))
      && (r.Fault? || r.Matched?)
  {
    var e := FirstSlash(path);
    var sub := Search(n.wildcardChild.value, verb, path[e..]);
    var wc := SearchWildcard(n, verb, path, SearchStatic(n, verb, path));
    if wc.Matched? {
      assert wc.params == sub.params + [wc.params[|sub.params|]];
    }
  }

  /** The catch-all's third case: when it has a handler for the verb, it wins even over
      a node the static or wildcard tier found without one, and captures the whole
      remaining path under its (innermost) name. */
  lemma CatchAllBeatsIdleNode<H>(n: Node<H>, verb: string, path: string)
    requires |path| > 0
    requires var st := SearchStatic(n, verb, path); !st.Fault? && !HasHandler(st)
    requires var wc := SearchWildcard(n, verb, path, SearchStatic(n, verb, path)); !wc.Fault? && !HasHandler(wc)
    requires n.catchAllChild.Some? && n.catchAllChild.value.handlers.Some?
    requires Get(n.catchAllChild.value.handlers.value, verb).Some?
    requires |n.catchAllChild.value.leafWildcardNames| > 0
    ensures var ca := n.catchAllChild.value;
      Search(n, verb, path) == Matched(ca, Get(ca.handlers.value, verb),
        [Params.Param(ca.leafWildcardNames[|ca.leafWildcardNames| - 1], DecodeOrRaw(path))])
  {
  }
}

=== FILE: tree.dfy ===
/** The radix tree of tree.go: nodes, addresses into the tree, the structural
    invariant, and insertion (`addPath` with its helpers `splitCommonPrefix` and
    `sortStaticChild`). The Go code mutates nodes in place and returns a pointer to
    the leaf; here insertion returns the new tree together with the address of that
    leaf, and the caller updates the leaf through `Replace`. */
module Tree {
  import opened Wrappers
  import opened HandlerTable

  datatype Node<H> = Node(
    route: string,                      // full pattern registered here, "" if none
    path: string,                       // the edge label
    priority: int,
    staticIndices: seq<char>,           // leading byte of each static child
    staticChild: seq<Node<H>>,
    wildcardChild: Option<Node<H>>,
    catchAllChild: Option<Node<H>>,
    addSlash: bool,
    isCatchAll: bool,
    handlers: Option<HandlerMap<H>>,    // None until the first handler is set
    leafWildcardNames: seq<string>)     // empty plays the role of Go's nil slice

  function NewNode<H>(path: string): Node<H> {
    Node("", path, 0, [], [], None, None, false, false, None, [])
  }

  /** One step from a node to a child; an address is the path from the root. */
  datatype Step = Static(k: nat) | Wild | CatchAll
  type Addr = seq<Step>

  function At<H>(n: Node<H>, a: Addr): Option<Node<H>>
    decreases |a|
  {
    if |a| == 0 then Some(n)
    else match a[0]
      case Static(k) => if k < |n.staticChild| then At(n.staticChild[k], a[1..]) else None
      case Wild => if n.wildcardChild.Some? then At(n.wildcardChild.value, a[1..]) else None
      case CatchAll => if n.catchAllChild.Some? then At(n.catchAllChild.value, a[1..]) else None
  }

  /** The tree with the node at `a` replaced by `m` (unchanged if `a` leads nowhere). */
  function Replace<H>(n: Node<H>, a: Addr, m: Node<H>): Node<H>
    decreases |a|
  {
    if |a| == 0 then m
    else match a[0]
      case Static(k) =>
        if k < |n.staticChild| then n.(staticChild := n.staticChild[k := Replace(n.staticChild[k], a[1..], m)])
        else n
      case Wild =>
        if n.wildcardChild.Some? then n.(wildcardChild := Some(Replace(n.wildcardChild.value, a[1..], m)))
        else n
      case CatchAll =>
        if n.catchAllChild.Some? then n.(catchAllChild := Some(Replace(n.catchAllChild.value, a[1..], m)))
        else n
  }

  /** The two parallel static arrays agree, every entry is its child's first byte,
      and sibling leading bytes are pairwise distinct. */
  predicate LocalInv<H>(n: Node<H>) {
    && |n.staticIndices| == |n.staticChild|
    && (forall k :: 0 <= k < |n.staticChild| ==>
          |n.staticChild[k].path| > 0 && n.staticIndices[k] == n.staticChild[k].path[0])
    && (forall j, k :: 0 <= j < k < |n.staticIndices| ==> n.staticIndices[j] != n.staticIndices[k])
    && (n.catchAllChild.Some? ==> n.catchAllChild.value.isCatchAll)
  }

  /** `LocalInv` at every node of the tree: the shape addPath builds and keeps. */
  predicate WellFormed<H>(n: Node<H>)
    decreases n
  {
    && LocalInv(n)
    && (forall k :: 0 <= k < |n.staticChild| ==> WellFormed(n.staticChild[k]))
    && (n.wildcardChild.Some? ==> WellFormed(n.wildcardChild.value))
    && (n.catchAllChild.Some? ==> WellFormed(n.catchAllChild.value))
  }

  /** `strings.IndexByte(s, '/')`, with |s| standing for -1. */
  function FirstSlash(s: string): (r: nat)
    ensures r <= |s|
    ensures r < |s| ==> s[r] == '/'
    ensures forall i :: 0 <= i < r ==> s[i] != '/'
  {
    if |s| == 0 then 0
    else if s[0] == '/' then 0
    else 1 + FirstSlash(s[1..])
  }

  /** First position of `c` in `xs`, or |xs|: the scan of `staticIndices`. */
  function IndexOf(xs: seq<char>, c: char): (r: nat)
    ensures r <= |xs|
    ensures r < |xs| ==> xs[r] == c
    ensures forall i :: 0 <= i < r ==> xs[i] != c
  {
    if |xs| == 0 then 0
    else if xs[0] == c then 0
    else 1 + IndexOf(xs[1..], c)
  }

  /** In a sequence without repeats, IndexOf finds each element at its own place. */
  lemma IndexOfDistinct(xs: seq<char>, x: nat)
    requires x < |xs|
    requires forall i, j :: 0 <= i < j < |xs| ==> xs[i] != xs[j]
    ensures IndexOf(xs, xs[x]) == x
  {
  }

  /** `node.paramName`: the i-th name counted from the innermost end; None where the
      Go slice index would be out of range. */
  function ParamName<H>(n: Node<H>, i: nat): (r: Option<string>)
    ensures r.Some? <==> i < |n.leafWildcardNames|
    ensures r.Some? ==> r.value == n.leafWildcardNames[|n.leafWildcardNames| - 1 - i]
  {
    if i < |n.leafWildcardNames| then Some(n.leafWildcardNames[|n.leafWildcardNames| - 1 - i]) else None
  }

  // ---------------------------------------------------------------------------
  // sortStaticChild

  /** `r` is `s` with the element at `i` moved forward to position `j`. */
  ghost predicate MovedTo<T>(s: seq<T>, r: seq<T>, i: nat, j: nat) {
    j <= i < |s| && r == s[..j] + [s[i]] + s[j..i] + s[i + 1..]
  }

  /** Where the element at position k of the moved sequence came from. */
  function MovedFrom(i: nat, j: nat, k: nat): nat {
    if k < j || k > i then k else if k == j then i else k - 1
  }

  lemma MovedIndex<T>(s: seq<T>, r: seq<T>, i: nat, j: nat)
    requires MovedTo(s, r, i, j)
    ensures |r| == |s|
    ensures forall k :: 0 <= k < |r| ==> MovedFrom(i, j, k) < |s| && r[k] == s[MovedFrom(i, j, k)]
  {
  }

  lemma MovedOneStep<T>(s: seq<T>, i: nat, r: seq<T>, j: nat)
    requires 0 < i < |s|
    requires MovedTo(s[i - 1 := s[i]][i := s[i - 1]], r, i - 1, j)
    ensures MovedTo(s, r, i, j)
  {
    var t := s[i - 1 := s[i]][i := s[i - 1]];
    assert t[..j] == s[..j];
    assert t[j..i - 1] == s[j..i - 1];
    assert t[i..] == [s[i - 1]] + s[i + 1..];
    assert s[j..i] == s[j..i - 1] + [s[i - 1]];
  }

  function Swap<H>(n: Node<H>, i: nat): (r: Node<H>)
    requires 0 < i < |n.staticChild| == |n.staticIndices|
  {
    n.(staticChild := n.staticChild[i - 1 := n.staticChild[i]][i := n.staticChild[i - 1]],
       staticIndices := n.staticIndices[i - 1 := n.staticIndices[i]][i := n.staticIndices[i - 1]])
  }

  /** One swap moves child i to i - 1 and leaves everything before i - 1 alone. */
  lemma SwapMovesChild<H>(n: Node<H>, i: nat)
    requires 0 < i < |n.staticChild| == |n.staticIndices|
    ensures Swap(n, i).staticChild[i - 1] == n.staticChild[i]
    ensures Swap(n, i).staticChild[i] == n.staticChild[i - 1]
    ensures forall k :: 0 <= k < i - 1 ==> Swap(n, i).staticChild[k] == n.staticChild[k]
  {
  }

  /** `node.sortStaticChild(i)`: bubbles child i (and its index byte with it) toward the
      front while its priority is strictly greater than its predecessor's. Returns the
      node and the child's final position j: everything in [j, i) had lower priority,
      and the one before j (if any) has at least as much, so ties keep their order. */
  function SortStaticChild<H>(n: Node<H>, i: nat): (r: (Node<H>, nat))
    requires i < |n.staticChild| == |n.staticIndices|
    ensures r.1 <= i
    ensures r.0 == n.(staticChild := r.0.staticChild, staticIndices := r.0.staticIndices)
    ensures MovedTo(n.staticChild, r.0.staticChild, i, r.1)
    ensures MovedTo(n.staticIndices, r.0.staticIndices, i, r.1)
    decreases i
  {
    if i > 0 && n.staticChild[i].priority > n.staticChild[i - 1].priority then
      var m := Swap(n, i);
      var r := SortStaticChild(m, i - 1);
      assert r.0 == n.(staticChild := r.0.staticChild, staticIndices := r.0.staticIndices);
      MovedOneStep(n.staticChild, i, r.0.staticChild, r.1);
      MovedOneStep(n.staticIndices, i, r.0.staticIndices, r.1);
      r
    else
      assert n.staticChild[..i] + [n.staticChild[i]] + n.staticChild[i..i] + n.staticChild[i + 1..] == n.staticChild;
      assert n.staticIndices[..i] + [n.staticIndices[i]] + n.staticIndices[i..i] + n.staticIndices[i + 1..] == n.staticIndices;
      (n, i)
  }

  /** Reference definition of where a child of priority `p`, standing at position `i`
      of `cs`, comes to rest when it overtakes every predecessor of strictly lower
      priority: it passes only lower-priority children and stops behind a peer. */
  function BubbleStop<H>(cs: seq<Node<H>>, i: nat, p: int): (j: nat)
    requires i <= |cs|
    ensures j <= i
    ensures forall k :: j <= k < i ==> cs[k].priority < p
    ensures j > 0 ==> cs[j - 1].priority >= p
    decreases i
  {
    if i > 0 && cs[i - 1].priority < p then BubbleStop(cs, i - 1, p) else i
  }

  /** BubbleStop only looks at the children in front of `i`. */
  lemma {:induction false} BubbleStopPrefix<H>(cs: seq<Node<H>>, ds: seq<Node<H>>, i: nat, p: int)
    requires i <= |cs| && i <= |ds|
    requires forall k :: 0 <= k < i ==> cs[k].priority == ds[k].priority
    ensures BubbleStop(cs, i, p) == BubbleStop(ds, i, p)
    decreases i
  {
    if i > 0 {
      BubbleStopPrefix(cs, ds, i - 1, p);
    }
  }

  /** `sortStaticChild` moves child i exactly to BubbleStop: every child it passes has
      strictly lower priority, and the one left in front of it has at least its
      priority, so children of equal priority keep their order. */
  lemma {:induction false} SortRespectsPriority<H>(n: Node<H>, i: nat)
    requires i < |n.staticChild| == |n.staticIndices|
    ensures SortStaticChild(n, i).1 == BubbleStop(n.staticChild, i, n.staticChild[i].priority)
    decreases i
  {
    var p := n.staticChild[i].priority;
    if i > 0 && p > n.staticChild[i - 1].priority {
      var m := Swap(n, i);
      SwapMovesChild(n, i);
      SortRespectsPriority(m, i - 1);
      BubbleStopPrefix(m.staticChild, n.staticChild, i - 1, p);
    }
  }

  lemma MovedFromInjective(i: nat, j: nat, a: nat, b: nat)
    requires j <= i && a != b
    ensures MovedFrom(i, j, a) != MovedFrom(i, j, b)
  {
  }

  /** Moving one child (and its index byte together with it) keeps the invariant. */
  lemma SortKeepsWellFormed<H>(n: Node<H>, i: nat)
    requires i < |n.staticChild| == |n.staticIndices|
    requires WellFormed(n)
    ensures WellFormed(SortStaticChild(n, i).0)
  {
    var (m, j) := SortStaticChild(n, i);
    MovedIndex(n.staticChild, m.staticChild, i, j);
    MovedIndex(n.staticIndices, m.staticIndices, i, j);
    forall a, b | 0 <= a < b < |m.staticIndices|
      ensures m.staticIndices[a] != m.staticIndices[b]
    {
      MovedFromInjective(i, j, a, b);
      var x, y := MovedFrom(i, j, a), MovedFrom(i, j, b);
      if x < y {
        assert n.staticIndices[x] != n.staticIndices[y];
      } else {
        assert n.staticIndices[y] != n.staticIndices[x];
      }
    }
  }

  // ---------------------------------------------------------------------------
  // splitCommonPrefix

  /** The `for i = range childPath` scan of splitCommonPrefix, starting at i: stops at
      the end of `token` or at the first mismatch, and otherwise ends on the last index
      of `childPath` (the range loop never yields |childPath|). */
  function CommonScan(childPath: string, token: string, i: nat): (r: nat)
    requires i < |childPath| && i <= |token|
    requires childPath[..i] == token[..i]
    ensures i <= r < |childPath| && r <= |token|
    ensures childPath[..r] == token[..r]
    ensures r == |token| || childPath[r] != token[r] || r == |childPath| - 1
    decreases |childPath| - i
  {
    if i == |token| || token[i] != childPath[i] then i
    else if i + 1 == |childPath| then i
    else
      assert childPath[..i + 1] == token[..i + 1];
      CommonScan(childPath, token, i + 1)
  }

  /** `node.splitCommonPrefix(k, token)`. If the child's label is a prefix of the token
      the node is unchanged and the whole label is consumed. Otherwise child k is
      replaced by an intermediary labelled with the longest common prefix, whose only
      static child is the old child relabelled with the rest of its label. Returns the
      node and the length consumed; the child to descend into is staticChild[k]. */
  function SplitCommonPrefix<H>(n: Node<H>, k: nat, token: string): (r: (Node<H>, nat))
    requires k < |n.staticChild|
    ensures var child := n.staticChild[k];
      child.path <= token ==> r == (n, |child.path|)
    ensures var child := n.staticChild[k];
      !(child.path <= token) ==>
        && var i := r.1;
        && |r.0.staticChild| == |n.staticChild|
        && var inter := r.0.staticChild[k];
        && i < |child.path| && i <= |token|
        && r.0 == n.(staticChild := n.staticChild[k := inter])
        // the longest common prefix
        && inter.path == token[..i] == child.path[..i]
        && (i == |token| || token[i] != child.path[i])
        // nothing is lost: the old child hangs below, relabelled with the rest
        && inter.staticChild == [child.(path := child.path[i..])]
        && inter.path + inter.staticChild[0].path == child.path
        && inter.staticIndices == [inter.staticChild[0].path[0]]
        && inter.priority == child.priority
        && inter.wildcardChild.None? && inter.catchAllChild.None? && inter.handlers.None?
        && inter.route == "" && inter.leafWildcardNames == []
        && !inter.addSlash && !inter.isCatchAll
    ensures var child := n.staticChild[k];
      |token| > 0 && |child.path| > 0 && token[0] == child.path[0] ==> r.1 >= 1
  {
    var child := n.staticChild[k];
    if child.path <= token then (n, |child.path|)
    else
      var i := CommonScan(child.path, token, 0);
      assert i == |token| || child.path[i] != token[i];
      var moved := child.(path := child.path[i..]);
      var inter := NewNode(token[..i]).(
        priority := child.priority, staticIndices := [moved.path[0]], staticChild := [moved]);
      assert inter.path + moved.path == child.path by {
        assert child.path[..i] + child.path[i..] == child.path;
      }
      (n.(staticChild := n.staticChild[k := inter]), i)
  }

  // ---------------------------------------------------------------------------
  // addPath

  /** The leaf case of `node.addPath`: the first wildcard list that reaches a leaf is
      recorded; a later one must agree in length and in every name. */
  function AddLeaf<H>(n: Node<H>, wildcards: seq<string>): (r: Result<Node<H>, RouteError>)
    ensures r.Err? <==> |wildcards| > 0 && |n.leafWildcardNames| > 0 && n.leafWildcardNames != wildcards
    ensures r.Err? && |n.leafWildcardNames| != |wildcards| ==> r.error == WildcardCountMismatch
    ensures r.Ok? && |wildcards| > 0 ==> r.value == n.(leafWildcardNames := wildcards)
    ensures r.Ok? && |wildcards| == 0 ==> r.value == n
  {
    if |wildcards| == 0 then Ok(n)
    else if |n.leafWildcardNames| == 0 then Ok(n.(leafWildcardNames := wildcards))
    else if |n.leafWildcardNames| != |wildcards| then Err(WildcardCountMismatch)
    else if n.leafWildcardNames != wildcards then
      Err(AmbiguousWildcards(n.leafWildcardNames, wildcards))
    else Ok(n)
  }

  /** The catch-all case of `node.addPath` (path starts with '*'). The child is taken
      or created first, then its label must equal everything after the '*', then no
      '/' may follow. The returned leaf records the names collected so far plus this
      one. */
  function AddCatchAll<H>(n: Node<H>, path: string, wildcards: seq<string>)
    : (r: Result<(Node<H>, Addr), RouteError>)
    requires |path| > 0 && path[0] == '*'
    ensures r.Ok? <==>
      FirstSlash(path) == |path| && (n.catchAllChild.None? || n.catchAllChild.value.path == path[1..])
    ensures r.Err? && (n.catchAllChild.None? || '/' !in n.catchAllChild.value.path) ==>
      r.error.CatchAllConflict?
    ensures r.Ok? ==> r.value.1 == [CatchAll] && At(r.value.0, r.value.1).Some?
    ensures r.Ok? ==> var leaf := At(r.value.0, r.value.1).value;
      && (n.catchAllChild.None? || n.catchAllChild.value.isCatchAll ==> leaf.isCatchAll)
      && leaf.path == path[1..]
      && leaf.leafWildcardNames == wildcards + [path[1..]]
      && leaf == n.catchAllChild.GetOr(leaf).(leafWildcardNames := leaf.leafWildcardNames)
    ensures r.Ok? ==> r.value.0 == n.(catchAllChild := r.value.0.catchAllChild)
  {
    var name := path[1..FirstSlash(path)];
    var ca := n.catchAllChild.GetOr(NewNode(name).(isCatchAll := true));
    if path[1..] != ca.path then
      Err(CatchAllConflict(path, ca.path))
    else if FirstSlash(path) < |path| then
      Err(SlashAfterCatchAll(path))
    else
      assert name == path[1..];
      var leaf := ca.(leafWildcardNames := wildcards + [name]);
      Ok((n.(catchAllChild := Some(leaf)), [CatchAll]))
  }

  /** The token that starts `path`: "/" alone, or everything up to the next '/'. */
  function TokenEnd(path: string): (e: nat)
    requires |path| > 0
    ensures 1 <= e <= |path|
    ensures path[0] == '/' ==> e == 1
    ensures path[0] != '/' ==> e == FirstSlash(path)
  {
    if path[0] == '/' then 1 else FirstSlash(path)
  }

  /** A token of the form `\*`, `\:` or `\\` outside a static token: the backslash is
      dropped and the character taken literally. */
  predicate IsEscaped(token: string, inStaticToken: bool) {
    |token| >= 2 && !inStaticToken && token[0] == '\\' && token[1] in "*:\\"
  }

  /** The static token at the head of `path`: the text up to TokenEnd, without the
      backslash of an escape. */
  function StaticToken(path: string, inStaticToken: bool): (token: string)
    requires |path| > 0
    ensures 0 < |token| <= TokenEnd(path)
    ensures (token[0] == '/') == (path[0] == '/')
  {
    var e := TokenEnd(path);
    if IsEscaped(path[..e], inStaticToken) then path[1..e] else path[..e]
  }

  /** The pattern bytes used up when `consumed` bytes of the static token matched:
      one more for an escaping backslash. */
  function PatternSkip(path: string, inStaticToken: bool, consumed: nat): nat
    requires |path| > 0
  {
    if IsEscaped(path[..TokenEnd(path)], inStaticToken) then consumed + 1 else consumed
  }

  /** An unescaped token is taken whole and skips nothing extra in the pattern. */
  lemma LiteralToken(path: string, inStaticToken: bool, consumed: nat)
    requires |path| > 0 && !IsEscaped(path[..TokenEnd(path)], inStaticToken)
    ensures StaticToken(path, inStaticToken) == path[..TokenEnd(path)]
    ensures PatternSkip(path, inStaticToken, consumed) == consumed
  {
  }

  /** `node.addPath(path, wildcards, inStaticToken)`: inserts the rest of a pattern
      below `n` and returns the new subtree with the address of the node that will own
      the handler. `*name` adds a catch-all leaf, `:name` descends into the wildcard
      child, and any other token is static (see AddStatic). */
  function AddPath<H>(n: Node<H>, path: string, wildcards: seq<string>, inStaticToken: bool)
    : (r: Result<(Node<H>, Addr), RouteError>)
    requires WellFormed(n)
    ensures r.Ok? ==> WellFormed(r.value.0) && r.value.0.path == n.path && r.value.0.priority == n.priority
    ensures r.Ok? ==> At(r.value.0, r.value.1).Some?
    decreases |path|, 1
  {
    if |path| == 0 then
      var leaf :- AddLeaf(n, wildcards);
      ShapeKeepsWellFormed(n, leaf);
      Ok((leaf, []))
    else if path[0] == '*' && !inStaticToken then
      CatchAllKeepsWellFormed(n, path, wildcards);
      AddCatchAll(n, path, wildcards)
    else if path[0] == ':' && !inStaticToken then
      AddWildcard(n, path, wildcards)
    else
      AddStatic(n, path, wildcards, inStaticToken)
  }

  /** The `:name` case: the wildcard child is created if absent (labelled "wildcard"),
      the name is appended, and insertion continues after the token. */
  function AddWildcard<H>(n: Node<H>, path: string, wildcards: seq<string>)
    : (r: Result<(Node<H>, Addr), RouteError>)
    requires WellFormed(n) && |path| > 0 && path[0] == ':'
    ensures r.Ok? ==> WellFormed(r.value.0) && r.value.0.path == n.path && r.value.0.priority == n.priority
    ensures r.Ok? ==> At(r.value.0, r.value.1).Some?
    ensures r.Ok? ==> |r.value.1| > 0 && r.value.1[0] == Wild
    decreases |path|, 0
  {
    var e := TokenEnd(path);
    var wc := n.wildcardChild.GetOr(NewNode("wildcard"));
    var sub :- AddPath(wc, path[e..], wildcards + [path[1..e]], false);
    var n' := n.(wildcardChild := Some(sub.0));
    AtCons(n', Wild, sub.1);
    Ok((n', [Wild] + sub.1))
  }

  /** A static token (possibly escaped, or the rest of a token already being matched):
      follow the static child with the same leading byte after splitting off the common
      prefix, raising its priority and re-sorting; otherwise append a new child holding
      the whole token. */
  function AddStatic<H>(n: Node<H>, path: string, wildcards: seq<string>, inStaticToken: bool)
    : (r: Result<(Node<H>, Addr), RouteError>)
    requires WellFormed(n) && |path| > 0
    ensures r.Ok? ==> WellFormed(r.value.0) && r.value.0.path == n.path && r.value.0.priority == n.priority
    ensures r.Ok? ==> At(r.value.0, r.value.1).Some?
    decreases |path|, 0
  {
    var e := TokenEnd(path);
    var token := StaticToken(path, inStaticToken);
    var c := token[0];
    var inStatic := c != '/';
    var k := IndexOf(n.staticIndices, c);
    if k < |n.staticIndices| then
      var (n3, j, consumed) := Descend(n, k, token);
      DescendKeepsWellFormed(n, k, token);
      var skip := PatternSkip(path, inStaticToken, consumed);
      var sub :- AddPath(n3.staticChild[j], path[skip..], wildcards, inStatic);
      var n4 := n3.(staticChild := n3.staticChild[j := sub.0]);
      PlaceKeepsWellFormed(n3, j, sub.0);
      AtCons(n4, Static(j), sub.1);
      Ok((n4, [Static(j)] + sub.1))
    else
      var sub :- AddPath(NewNode(token), path[e..], wildcards, inStatic);
      var n' := n.(staticIndices := n.staticIndices + [c], staticChild := n.staticChild + [sub.0]);
      AppendKeepsWellFormed(n, c, sub.0);
      AtCons(n', Static(|n.staticChild|), sub.1);
      Ok((n', [Static(|n.staticChild|)] + sub.1))
  }

  /** The steps addPath takes before following the existing static child k: split off
      the common prefix, raise the child's priority and re-sort. Returns the node, the
      child's new position j and the length of the token its label consumed. Only the
      static arrays change; the other children keep their relative order; the child at
      j is labelled with the consumed part of the token and is either the old child
      (one priority higher) or a fresh intermediary holding the old child below it. */
  function Descend<H>(n: Node<H>, k: nat, token: string): (r: (Node<H>, nat, nat))
    requires k < |n.staticChild| == |n.staticIndices|
    ensures var (m, j, consumed) := r;
      && j <= k && |m.staticChild| == |n.staticChild|
      && m == n.(staticChild := m.staticChild, staticIndices := m.staticIndices)
      && consumed <= |token|
    ensures var child := n.staticChild[k];
      |token| > 0 && |child.path| > 0 && token[0] == child.path[0] ==> r.2 >= 1
  {
    var (n1, consumed) := SplitCommonPrefix(n, k, token);
    var n2 := BumpPriority(n1, k);
    var (n3, j) := SortStaticChild(n2, k);
    (n3, j, consumed)
  }

  lemma DescendKeepsWellFormed<H>(n: Node<H>, k: nat, token: string)
    requires WellFormed(n) && k < |n.staticChild| && |token| > 0 && token[0] == n.staticIndices[k]
    ensures WellFormed(Descend(n, k, token).0)
  {
    SplitKeepsWellFormed(n, k, token);
    var n2 := BumpPriority(SplitCommonPrefix(n, k, token).0, k);
    SortKeepsWellFormed(n2, k);
  }

  /** After Descend, looking up the token's first byte finds the child that now
      holds the consumed part of the token. */
  lemma DescendFindsChild<H>(n: Node<H>, k: nat, token: string, m: Node<H>, j: nat, consumed: nat)
    requires WellFormed(n) && k < |n.staticChild| && |token| > 0 && token[0] == n.staticIndices[k]
    requires (m, j, consumed) == Descend(n, k, token)
    ensures WellFormed(m) && j < |m.staticChild| == |m.staticIndices|
    ensures IndexOf(m.staticIndices, token[0]) == j && m.staticChild[j].path == token[..consumed]
  {
    DescendOthers(n, k, token);
    DescendKeepsWellFormed(n, k, token);
    assert m.staticIndices[j] == n.staticIndices[k];
    IndexOfDistinct(m.staticIndices, j);
  }

  /** Descend moves the index byte of child k to position j, which now holds the
      consumed part of the token, and every other child keeps its relative order. */
  lemma DescendOthers<H>(n: Node<H>, k: nat, token: string)
    requires k < |n.staticChild| == |n.staticIndices|
    ensures var (m, j, consumed) := Descend(n, k, token);
      && MovedTo(n.staticIndices, m.staticIndices, k, j)
      && m.staticChild[j].path == token[..consumed]
      && (forall x :: 0 <= x < |m.staticChild| && x != j ==> m.staticChild[x] == n.staticChild[MovedFrom(k, j, x)])
  {
    var (n1, consumed) := SplitCommonPrefix(n, k, token);
    var n2 := BumpPriority(n1, k);
    var (n3, j) := SortStaticChild(n2, k);
    MovedIndex(n2.staticChild, n3.staticChild, k, j);
    forall x | 0 <= x < |n3.staticChild| && x != j
      ensures n3.staticChild[x] == n.staticChild[MovedFrom(k, j, x)]
    {
      MovedFromInjective(k, j, x, j);
    }
  }

  /** The child Descend leads to when its label prefixes the token: the old child,
      one priority higher, and its whole label is consumed. */
  lemma DescendIntoChild<H>(n: Node<H>, k: nat, token: string)
    requires k < |n.staticChild| == |n.staticIndices|
    requires n.staticChild[k].path <= token
    ensures var (m, j, consumed) := Descend(n, k, token); var child := n.staticChild[k];
      consumed == |child.path| && m.staticChild[j] == child.(priority := child.priority + 1)
  {
    var n2 := BumpPriority(n, k);
    var (n3, j) := SortStaticChild(n2, k);
    MovedIndex(n2.staticChild, n3.staticChild, k, j);
    assert n3.staticChild[j] == n2.staticChild[k];
  }

  /** Otherwise Descend leads to a fresh intermediary labelled with the common
      prefix, one priority above the old child, which hangs below it relabelled. */
  lemma DescendIntoSplit<H>(n: Node<H>, k: nat, token: string)
    requires k < |n.staticChild| == |n.staticIndices|
    requires !(n.staticChild[k].path <= token)
    ensures var (m, j, consumed) := Descend(n, k, token); var child := n.staticChild[k];
      && consumed < |child.path|
      && m.staticChild[j] == NewNode(token[..consumed]).(
           priority := child.priority + 1,
           staticIndices := [child.path[consumed]],
           staticChild := [child.(path := child.path[consumed..])])
  {
    var (n1, consumed) := SplitCommonPrefix(n, k, token);
    var n2 := BumpPriority(n1, k);
    var (n3, j) := SortStaticChild(n2, k);
    MovedIndex(n2.staticChild, n3.staticChild, k, j);
    assert n3.staticChild[j] == n2.staticChild[k];
  }

  /** Two nodes with the same children. */
  ghost predicate SameChildren<H>(a: Node<H>, b: Node<H>) {
    && a.staticIndices == b.staticIndices && a.staticChild == b.staticChild
    && a.wildcardChild == b.wildcardChild && a.catchAllChild == b.catchAllChild
  }

  /** Well-formedness depends only on the children, never on a node's own label,
      priority, names or handlers. */
  lemma ShapeKeepsWellFormed<H>(a: Node<H>, b: Node<H>)
    requires SameChildren(a, b)
    ensures WellFormed(a) <==> WellFormed(b)
  {
  }

  /** `child.priority++` on the static child at k. */
  function BumpPriority<H>(n: Node<H>, k: nat): (r: Node<H>)
    requires k < |n.staticChild|
    ensures |r.staticChild| == |n.staticChild|
    ensures r.staticChild[k].priority == n.staticChild[k].priority + 1
    ensures WellFormed(n) ==> WellFormed(r)
  {
    var child := n.staticChild[k];
    var r := n.(staticChild := n.staticChild[k := child.(priority := child.priority + 1)]);
    ShapeKeepsWellFormed(child, r.staticChild[k]);
    assert WellFormed(n) ==> LocalInv(r);
    r
  }

  /** Only the bumped child's priority changes: its other fields, every other child
      and the rest of the node stay as they were. */
  lemma BumpPriorityFrame<H>(n: Node<H>, k: nat)
    requires k < |n.staticChild|
    ensures var r := BumpPriority(n, k);
      && r == n.(staticChild := r.staticChild)
      && r.staticChild[k] == n.staticChild[k].(priority := n.staticChild[k].priority + 1)
      && forall x :: 0 <= x < |r.staticChild| && x != k ==> r.staticChild[x] == n.staticChild[x]
  {
  }

  lemma AtCons<H>(n: Node<H>, s: Step, a: Addr)
    ensures At(n, [s] + a) == match s
      case Static(k) => if k < |n.staticChild| then At(n.staticChild[k], a) else None
      case Wild => if n.wildcardChild.Some? then At(n.wildcardChild.value, a) else None
      case CatchAll => if n.catchAllChild.Some? then At(n.catchAllChild.value, a) else None
  {
    assert ([s] + a)[1..] == a;
  }

  lemma CatchAllKeepsWellFormed<H>(n: Node<H>, path: string, wildcards: seq<string>)
    requires WellFormed(n)
    requires |path| > 0 && path[0] == '*'
    ensures var r := AddCatchAll(n, path, wildcards);
      r.Ok? ==> WellFormed(r.value.0) && r.value.0.path == n.path && r.value.0.priority == n.priority
  {
    var r := AddCatchAll(n, path, wildcards);
    if r.Ok? {
      var leaf := r.value.0.catchAllChild.value;
      assert WellFormed(leaf);
    }
  }

  lemma SplitKeepsWellFormed<H>(n: Node<H>, k: nat, token: string)
    requires WellFormed(n)
    requires k < |n.staticChild| && |token| > 0 && token[0] == n.staticIndices[k]
    ensures var (m, i) := SplitCommonPrefix(n, k, token);
      && WellFormed(m) && |m.staticChild| == |n.staticChild|
      && m.staticIndices == n.staticIndices
      && 1 <= i <= |token|
  {
    var child := n.staticChild[k];
    var (m, i) := SplitCommonPrefix(n, k, token);
    if !(child.path <= token) {
      var inter := m.staticChild[k];
      var moved := inter.staticChild[0];
      assert WellFormed(child);
      ShapeKeepsWellFormed(child, moved);
      assert LocalInv(inter);
      assert WellFormed(inter);
      assert LocalInv(m);
    }
  }

  lemma PlaceKeepsWellFormed<H>(n: Node<H>, j: nat, c: Node<H>)
    requires WellFormed(n) && j < |n.staticChild|
    requires WellFormed(c) && c.path == n.staticChild[j].path
    ensures WellFormed(n.(staticChild := n.staticChild[j := c]))
  {
    var m := n.(staticChild := n.staticChild[j := c]);
    assert LocalInv(m);
  }

  lemma AppendKeepsWellFormed<H>(n: Node<H>, c: char, child: Node<H>)
    requires WellFormed(n) && IndexOf(n.staticIndices, c) == |n.staticIndices|
    requires WellFormed(child) && |child.path| > 0 && child.path[0] == c
    ensures WellFormed(n.(staticIndices := n.staticIndices + [c], staticChild := n.staticChild + [child]))
  {
    var m := n.(staticIndices := n.staticIndices + [c], staticChild := n.staticChild + [child]);
    assert LocalInv(m);
  }

  /** Two nodes that differ at most in route, priority, names, handlers and flags
      other than isCatchAll. */
  ghost predicate SameShape<H>(a: Node<H>, b: Node<H>) {
    SameChildren(a, b) && a.path == b.path && a.isCatchAll == b.isCatchAll
  }

  /** Updating a node's data in place keeps the tree well formed, and the address
      then leads to the new node. */
  lemma {:induction false} ReplaceKeepsWellFormed<H>(t: Node<H>, a: Addr, m: Node<H>)
    requires WellFormed(t) && At(t, a).Some? && SameShape(At(t, a).value, m)
    ensures WellFormed(Replace(t, a, m)) && Replace(t, a, m).path == t.path
    ensures Replace(t, a, m).isCatchAll == t.isCatchAll
    ensures At(Replace(t, a, m), a) == Some(m)
    decreases |a|
  {
    if |a| == 0 {
      ShapeKeepsWellFormed(t, m);
    } else {
      var r := Replace(t, a, m);
      match a[0]
      case Static(k) =>
        ReplaceKeepsWellFormed(t.staticChild[k], a[1..], m);
        PlaceKeepsWellFormed(t, k, Replace(t.staticChild[k], a[1..], m));
      case Wild =>
        ReplaceKeepsWellFormed(t.wildcardChild.value, a[1..], m);
      case CatchAll =>
        ReplaceKeepsWellFormed(t.catchAllChild.value, a[1..], m);
    }
  }
}

=== FILE: wrappers.dfy ===
/** Failure-compatible Option and Result types, and the registration errors that
    replace the router's panics. */
module Wrappers {

  datatype Option<+T> = None | Some(value: T) {
    function GetOr(default: T): T {
      match this
      case Some(v) => v
      case None => default
    }
  }

  datatype Result<+T, +E> = Ok(value: T) | Err(error: E) {
    predicate IsFailure() {
      Err?
    }

    function PropagateFailure<U>(): Result<U, E>
      requires Err?
    {
      Err(error)
    }

    function Extract(): T
      requires Ok?
    {
      value
    }
  }

  /** The result of a check that either passes or fails with an error. */
  datatype Outcome<+E> = Pass | Fail(error: E)

  /** One constructor per panic the registration path can raise. */
  datatype RouteError =
    | DuplicateHandler(path: string, verb: string)   // "<path> already handles <verb>"
    | WildcardCountMismatch                           // differing wildcard array length
    | AmbiguousWildcards(leafNames: seq<string>, newNames: seq<string>)
    | CatchAllConflict(path: string, catchAllName: string)
    | SlashAfterCatchAll(path: string)
    | PathMustStartWithSlash(path: string)
    | EmptyPath
    | RouteConflict(registered: string, requested: string)    // %q != %q in addOne
}
